=== FILE: README.md ===
# autobuild-go, modelled in Dafny

autobuild-go builds every Go program found in a source tree for a matrix of
operating systems and architectures. It does four things:

- It walks the tree. Each `main.go` is paired with the nearest enclosing
  `go.mod` directory, and that pair is a *project*.
- Per project, it runs the configured stages in a fixed order: test, build,
  hash.
- It writes one digest file per artifact and hash algorithm.
- When no toolchain is present, it downloads and unpacks the latest stable Go
  release next to the project.

The model covers:

- the project walker;
- the target matrix and the default profile;
- the build orchestrator: stages, fail-fast building, skip-and-continue
  hashing, names and environment;
- the version resolver;
- the toolchain installer: the archive name and URL, the choice of extractor,
  the ZipSlip check of `unzip` and the entry dispatch of `untarGz`.

Everything outside the process is an oracle parameter. This includes the
file system, `go test`/`go build`, HTTP, archive decoding and the digest
algorithms. What the program does to the outside world is returned as a
sequence of effects, and each property is a statement about that sequence.

Modules, one per file:

| module | file | models |
|---|---|---|
| `Wrappers` | wrappers.dfy | `Option`, `Result`, `Outcome` (Go's `(T, error)` and `error`) |
| `Text` | text.dfy | `strings.Contains`, `HasPrefix`, `ToLower`, decimal printing |
| `Paths` | paths.dfy | absolute paths as component sequences; `Dir`, `Base`, `Join`, their text |
| `Models` | models.dfy | `Project`, `Profile`, `Toolchain`, `Config`, `SelectedConfig`, `DefaultConfig` |
| `Walker` | walker.dfy | `ProjectWalker.Run`, `findMainAndGoMod`, `findNearestGoMod` |
| `Targets` | targets.dfy | the `os → [arch]` expansion of `NewGoBuilder` |
| `Hashing` | hashing.dfy | hasher state (`Write`/`Sum`/`Reset`), `hex.EncodeToString` |
| `Builder` | builder.dfy | `GoBuilder`, `NewGoBuilder`, `Build`, `testExec`, `buildExec`, `sumExec`, `persistLog` |
| `BuilderFacts` | builder_facts.dfy | properties of the orchestrator across stages and projects |
| `Version` | version.dfy | `GetLatestGoVersion`, `extractVersionNumber` |
| `Installer` | installer.dfy | `New`, `EnsureGo`, `isGoInstalled`, `downloadAndInstallGo`, `unzip`, `untarGz` |

Modelling choices:

- **Paths.** A path is `seq<string>` and the root is `[]`. `Render` gives the
  text Go sees. That text is used for the `.toolchain`/`.build` substring test,
  for `-o` arguments, for environment values and for digest file names.
- **Go map iteration order.** It is an explicit parameter that must list every
  key exactly once (`Targets.Enumerates`). A property that holds "whatever the
  order" is therefore proved for every such parameter.
- **Concurrency.** The walker goroutine and the per-project goroutines are
  modelled as a sequence. `Builder.RunUnits` proves that every project's result
  equals running it alone, so order does not matter.
- **Hashers.** A hasher is the algorithm plus the bytes written since the last
  `Reset`. The digest function is an oracle. `SizedDigests` states the digest
  lengths of SHA-1, SHA-256 and SHA-512.
- **Environment lookup.** `Builder.EnvLookup` models how `os/exec` reads an
  environment list: the last entry for a key wins.
- **Installer paths.** The installer's string paths go through given
  `filepath.Join`/`Clean`/`Dir` functions (`Installer.PathOps`). The ZipSlip
  check is therefore stated for any path semantics.

Where the code and its documentation disagree, the model follows the code:

- `cmd/autobuild-go/main.go` calls the installer as `New(path, conf)`, but
  `golanginstaller.go` declares `New(projectPath)`. The model follows
  `golanginstaller.go`: the toolchain directory is `<project>/.toolchain`.
- The default configuration, built from the project path, puts the toolchain
  at `<parent of project>/.toolchain`, while the installer uses
  `<project>/.toolchain`. `Installer.InstallDirVsDefaultLocation` shows the two
  agree only for the root.
- The walker excludes any path whose full text contains `.toolchain` or
  `.build`, not only path segments with those names. So a tree under, for
  example, `/home/me/x.build/` yields no projects at all. The model keeps the
  substring test.

## Model

| member | source | states |
|---|---|---|
| Walker.FindNearestGoMod | internal/processors/projectwalker.go:80-96 | the result is the start directory or an ancestor of it holding go.mod, no directory strictly between holds go.mod, and there is no result exactly when no directory from the start up to the root holds go.mod; the search ends because every step shortens the path |
| Walker.Discover | internal/processors/projectwalker.go:46-74 | an entry yields a project exactly when it was reached without error, is a file, its lower-cased name is `main.go`, its text contains neither `.toolchain` nor `.build`, and a module root exists above it; the project's source dir is the file's directory, its name that directory's base name, its build dir the walker's, and its root the nearest ancestor-or-self holding go.mod: no directory between the two holds one |
| Walker.MainGoSpellings | internal/processors/projectwalker.go:57 | an entry counts as `main.go` exactly when its name is seven runes long and each rune is that letter of `main.go` or one of its capitals (including U+0130 for `i`) |
| Walker.ExcludedDir | internal/processors/projectwalker.go:52-54 | when a directory's text is excluded, so are its direct entries |
| Walker.ExcludedAncestor | internal/processors/projectwalker.go:52-54 | when any directory on a path's chain is excluded, so is the path: everything inside an ignored directory, at any depth, is ignored |
| Walker.FindMainAndGoMod | internal/processors/projectwalker.go:45-77 | every published project is well formed, rooted at the nearest go.mod above its main.go, and there is at most one per visited entry |
| Walker.FindMainAndGoModAppend | internal/processors/projectwalker.go:45-77 | the projects of a walk are those of its parts, in visit order |
| Walker.FindMainAndGoModMembers | internal/processors/projectwalker.go:46-76 | a project is published exactly when some visited entry yields it |
| Walker.AccessErrorSkipped | internal/processors/projectwalker.go:47-50 | an entry that cannot be accessed is skipped and the walk continues with the entries after it |
| Walker.Run | internal/processors/projectwalker.go:23-42 | an empty root path or a missing channel gives "projectWalker not initialized" and nothing else; otherwise the run succeeds, every project is sent in walk order and the channel is then closed once |
| Walker.ScenarioApp2 | internal/processors/projectwalker.go:57-70 | `/lib/app2/main.go` under a module rooted at `/` yields project app2 with root `/` |
| Walker.DiscoveryScenario | internal/processors/projectwalker.go:45-96 | the tree `/app1/main.go`+`/app1/go.mod`, `/lib/app2/main.go`+`/go.mod` publishes app1 rooted at `/app1`, then app2 rooted at `/` |
| Text.ToLowerEquals | internal/processors/projectwalker.go:57 | a lowered name equals a lower-case ASCII text exactly when it has the same length and each rune is the text's rune or one of its capitals |
| Text.ToLowerIdempotent | internal/processors/projectwalker.go:57 | lowering twice is lowering once, and a lowered name contains no ASCII capital |
| Models.DefaultConfig | internal/models/profiles.go:29-46 | the OS map has exactly the keys windows, linux and darwin, each mapped to amd64 then arm64; the stages are test, build, hash; the toolchain is "latest" in `.toolchain` beside the directory of the given path |
| Targets.ExpandTargets | internal/builder/gobuilder.go:206-219 | one target per listed (system, architecture) pair and nothing else, as many as the architecture lists are long together; the suffix is `.exe` exactly for windows |
| Targets.ExpandTargetsPerOs | internal/builder/gobuilder.go:211-217 | the architectures of one system appear in the targets in their list order, whatever order the systems are visited in |
| Targets.ExeCountIsWindowsArchs | internal/builder/gobuilder.go:207-210 | the number of `.exe` targets is the number of windows targets |
| Targets.DefaultTargets | internal/models/profiles.go:32-36 | the default profile expands, in any map order, to six targets covering every default pair, exactly two of them with `.exe` |
| Hashing.WriteSumReset | internal/builder/gobuilder.go:121-126 | writing an artifact to a reset hasher, summing and resetting gives the digest of that artifact alone and leaves the hasher reset |
| Hashing.HexEncode | internal/builder/gobuilder.go:125 | two lower-case hex digits per byte |
| Hashing.HexRoundTrip | internal/builder/gobuilder.go:125 | decoding the hex text gives back the digest bytes |
| Builder.NewGoBuilder | internal/builder/gobuilder.go:203-242 | the builder is valid (fresh hashers, an iteration order over them), has exactly the hashers sha256, sha512 and sha1 with their algorithms, its stage set is the set of configured stage names, its targets are the `os → [arch]` expansion of the profile, GOROOT and GOPATH are `<toolchain>/go` and `<toolchain>/gopath`, and the base environment is the process environment followed by the user's lines |
| Builder.TestExec | internal/builder/gobuilder.go:74-97 | the test command runs first; the stage passes exactly when it succeeds; on failure the captured output is persisted to the two log files and the error is "error testing <name>: <error>. Logs created" |
| Builder.PersistLog | internal/builder/gobuilder.go:137-151 | stdout goes to `build-<name>.log` and stderr to `error-<name>.log` in the build dir, each exactly when its file write succeeds, in the map's iteration order; nothing else is written |
| Builder.BuildExec | internal/builder/gobuilder.go:153-181 | targets are compiled in list order; every target before the last attempted one succeeded; the stage passes exactly when every target was compiled successfully; on failure the last attempted target is the one that failed |
| Builder.FirstBuildFailure | internal/builder/gobuilder.go:154-176 | the position of the first target, in list order, whose compilation fails, and none exactly when every target compiles |
| Builder.SumLabels | internal/builder/gobuilder.go:115-132 | the hashers are left as they were; a digest file is written for a key exactly when the hasher write and the file write for that key succeed, and it holds the hex digest of this artifact |
| Builder.SumTargets | internal/builder/gobuilder.go:100-133 | a digest file is written for a target and key exactly when the target's artifact is found and read and that key's hasher write and file write succeed; it holds the digest of the artifact's bytes; the hashers are left as they were |
| Builder.SumExec | internal/builder/gobuilder.go:99-135 | hashing never reports an error and leaves every hasher reset |
| Builder.RunUnit | internal/builder/gobuilder.go:47-69 | a project's pipeline never ends in a hash failure and leaves the hashers reset |
| Builder.RunUnits | internal/builder/gobuilder.go:44-71 | each project's result is what running that project alone gives: projects do not affect each other |
| Builder.Build | internal/builder/gobuilder.go:39-72 | one result per project, each the project's pipeline run alone with fresh hashers in the environment extended by GOPATH, GOROOT and PATH |
| BuilderFacts.RunUnitOutcome | internal/builder/gobuilder.go:49-68 | a project's tests fail exactly when the test stage is configured and the test command fails; its build fails exactly when the tests passed or were skipped, the build stage is configured and some target does not compile, with buildExec's error; otherwise it completes |
| BuilderFacts.RunUnitEffects | internal/builder/gobuilder.go:49-68 | a project does its tests, then the build only when the tests passed, then hashing only when the build passed too |
| BuilderFacts.StagesInOrder | internal/builder/gobuilder.go:49-68 | whatever order the stages are configured in, every test effect comes before every build effect and every build effect before every digest file |
| BuilderFacts.TestFailureStopsUnit | internal/builder/gobuilder.go:89-92 | a failing test run ends the project with the test error; after the test command the only effects are writes of the two log files |
| BuilderFacts.SumTargetsAppend | internal/builder/gobuilder.go:100-133 | digest files follow the target list: hashing two lists in turn writes the first list's files, then the second's |
| BuilderFacts.SumTargetsSkip | internal/builder/gobuilder.go:104-113 | a target whose artifact is missing or unreadable is passed over: hashing does exactly what it does without that target, so later targets still get their digest files |
| BuilderFacts.BuildFailureSkipsHash | internal/builder/gobuilder.go:56-61 | after a build failure no digest file is written and the last effect is the failed compilation |
| BuilderFacts.BuildExecError | internal/builder/gobuilder.go:173-175 | a failed build stage reports "error building for <os>/<arch>: <error>", then the captured stdout and stderr of the failing compilation, each on its own line |
| BuilderFacts.StageGating | internal/builder/gobuilder.go:49-67 | an effect of a stage occurs only when that stage is configured and every earlier configured stage passed |
| BuilderFacts.UnknownStagesIgnored | internal/builder/gobuilder.go:224-227 | stage names other than test, build and hash change nothing |
| BuilderFacts.BuildExecIgnoresStages | internal/builder/gobuilder.go:153-181 | the build stage does not depend on which stages are configured |
| BuilderFacts.SumTargetsAllWritten | internal/builder/gobuilder.go:100-133 | when every artifact is readable and every write succeeds, there is one digest file per target and hasher |
| BuilderFacts.HashStageAllWritten | internal/builder/gobuilder.go:99-135 | when every artifact is readable and every write succeeds, the hash stage writes one digest file per target and hasher and nothing else |
| BuilderFacts.BuildStageAllOk | internal/builder/gobuilder.go:153-181 | when every command succeeds, the build stage passes after compiling each target once, in list order |
| BuilderFacts.AllSucceedCounts | internal/builder/gobuilder.go:56-67 | with stages build and hash and every operation succeeding: one compilation per target in order, then one digest file per target and hasher, no test run, and the project completes |
| BuilderFacts.SidecarContents | internal/builder/gobuilder.go:119-127 | every digest file is named after an artifact the build stage writes with `-o`, with the hasher key as extension, and holds the lower-case hex digest of that artifact's bytes, twice the digest size long |
| BuilderFacts.ArtifactNameInjective | internal/builder/gobuilder.go:157-158 | within one project, different targets never write the same artifact file (system names contain no `-`) |
| BuilderFacts.BuildEnvLookup | internal/builder/gobuilder.go:40-42 | in `Build`'s environment GOROOT is `<toolchain>/go`, GOPATH is `<toolchain>/gopath`, PATH starts with `<toolchain>/go/bin` followed by the inherited PATH, and the base environment comes first unchanged |
| BuilderFacts.TargetEnvSets | internal/builder/gobuilder.go:163-165 | a compilation's environment has the target's GOOS and GOARCH, after the shared environment unchanged |
| BuilderFacts.TargetEnvKeeps | internal/builder/gobuilder.go:163-165 | adding GOOS and GOARCH does not change GOROOT, GOPATH or PATH |
| BuilderFacts.TargetEnvironment | internal/builder/gobuilder.go:229-233 | a compilation of a builder made by `NewGoBuilder` sees its target's GOOS and GOARCH and the toolchain's GOROOT, GOPATH and PATH, after the process and user environment |
| BuilderFacts.CompileEnvironment | internal/builder/gobuilder.go:39-42 | for any builder, a compilation sees its target's GOOS and GOARCH and the builder's GOROOT, GOPATH and a PATH led by `<GOROOT>/bin`, after the base environment unchanged |
| Version.FirstStable | internal/golanginstaller/version.go:27-31 | the index of the first entry whose `stable` is boolean true, and none exactly when there is no such entry |
| Version.LeftmostMatch | internal/golanginstaller/version.go:39-40 | the first position at or after a start where `go` followed by a digit or dot begins |
| Version.ExtractVersionNumber | internal/golanginstaller/version.go:38-45 | empty exactly when no `go` is followed by a digit or dot; otherwise only digits and dots, starting right after the leftmost such `go` and running to the first other character or the end |
| Version.ExtractVersionNumberUnique | internal/golanginstaller/version.go:39-43 | any leftmost, maximal digit-and-dot run after `go` is the extracted number |
| Version.ExtractFromReleaseName | internal/golanginstaller/version.go:37-45 | `go<v>` gives `v` for every non-empty run `v` of digits and dots |
| Version.ExtractIdempotent | internal/golanginstaller/version.go:38-45 | extracting from `go<result>` gives the result again |
| Version.ExtractExample | internal/golanginstaller/version.go:37 | `go1.17.2` gives `1.17.2` |
| Version.ExtractStopsAtLetter | internal/golanginstaller/version.go:39 | `go1.22rc1` gives `1.22` |
| Version.GetLatestGoVersion | internal/golanginstaller/version.go:11-35 | transport, status and decoding errors are reported as such; with no stable entry the error is "no stable version found"; otherwise the first stable entry decides: the number extracted from its version, or a panic when the version is not a string |
| Installer.New | internal/golanginstaller/golanginstaller.go:24-30 | the toolchain directory is `.toolchain` directly inside the project path |
| Installer.InstallDirVsDefaultLocation | internal/models/profiles.go:41-44 | the installer made from a project path and the default configuration for the same path name the same toolchain directory only when the path is the root |
| Installer.ArchiveNameParts | internal/golanginstaller/golanginstaller.go:62-72 | the archive name is `go`, the version, `.`, `<goos>-<goarch>`, then `.zip` on windows and `.tar.gz` elsewhere |
| Installer.DownloadUrlParts | internal/golanginstaller/golanginstaller.go:74 | the URL is the archive name under `https://golang.org/dl/` |
| Installer.ExtractorMatchesFormat | internal/golanginstaller/golanginstaller.go:84-92 | `unzip` is used exactly for the zip format and `untarGz` exactly for tar.gz |
| Installer.RunSteps | internal/golanginstaller/golanginstaller.go:127-163 | entries are extracted in order; extraction succeeds exactly when every entry does, and then performs every entry's operations |
| Installer.RunStepsStopsAt | internal/golanginstaller/golanginstaller.go:181-213 | the first failing entry ends extraction with its error, after all operations of the entries before it and none of those after it |
| Installer.Perform | internal/golanginstaller/golanginstaller.go:140-161 | operations run in order up to the first failure, whose error is returned, and every operation before it succeeded; success exactly when every operation succeeds |
| Installer.PerformThenCopy | internal/golanginstaller/golanginstaller.go:140-154 | creating the directory and file and then copying is the two creations followed by the copy, which runs only when both succeeded |
| Installer.UnzipEntry | internal/golanginstaller/golanginstaller.go:127-161 | an entry whose joined path lacks the `Clean(dest)+separator` prefix gives "illegal file path: <path>" and does nothing; a directory entry creates its directory and never fails; a file entry is written as described for `WriteEntryFile`; files are created and written only at the joined path, and a file entry that succeeds has its bytes copied there |
| Installer.WriteEntryFile | internal/golanginstaller/golanginstaller.go:140-161 | a file entry creates its parent directory, then the file, then copies its bytes, stopping at the first failure; an entry whose bytes cannot be opened fails with that error after the file was created; success means the bytes were copied |
| Installer.UnzipEntries | internal/golanginstaller/golanginstaller.go:127-163 | `unzip`'s entry loop succeeds exactly when every entry does, and then has done every entry's operations in archive order |
| Installer.UnzipStopsAt | internal/golanginstaller/golanginstaller.go:127-163 | the first failing entry, whatever failed (path check, directory or file creation, opening the entry, the copy), ends `unzip` with its error: earlier entries did all their operations, the failing one those up to its failure, later ones nothing |
| Installer.UnzipStaysInside | internal/golanginstaller/golanginstaller.go:130-133 | every file `unzip` creates or writes has the `Clean(dest)+separator` prefix, whatever the entry names |
| Installer.UnzipStopsAtIllegal | internal/golanginstaller/golanginstaller.go:127-133 | the first entry failing the prefix check ends `unzip` with "illegal file path", after the earlier entries were extracted |
| Installer.UnzipArchive | internal/golanginstaller/golanginstaller.go:120-126 | an archive that cannot be opened gives that error and does nothing |
| Installer.UntarItem | internal/golanginstaller/golanginstaller.go:182-212 | a read error aborts with it; a directory header creates its directory; a regular header creates the parent, the file and copies its contents, stopping at the first failure, and succeeds exactly when all three succeed; any other type gives "unknown file type: <flag> in tar.gz" |
| Installer.UntarItems | internal/golanginstaller/golanginstaller.go:181-214 | `untarGz` succeeds exactly when every item does, and then every item was a directory or regular file; reaching the end of the archive is success; on success every item's operations were done in archive order |
| Installer.UntarStopsAt | internal/golanginstaller/golanginstaller.go:181-211 | the first failing item (read error, failed creation or copy, unknown type) ends `untarGz` with its error: earlier items did all their operations, the failing one those up to its failure, later ones nothing |
| Installer.UntarStopsAtUnknown | internal/golanginstaller/golanginstaller.go:198-209 | an item of any type other than directory or regular file aborts `untarGz` with "unknown file type: <flag> in tar.gz" after the earlier items were extracted, touching nothing after it |
| Installer.UntarWritesAnyPath | internal/golanginstaller/golanginstaller.go:190-209 | a regular entry is written at the joined path with no check that it stays inside the destination |
| Installer.UntarArchive | internal/golanginstaller/golanginstaller.go:167-180 | an archive that cannot be opened gives that error and does nothing |
| Installer.ExtractArchive | internal/golanginstaller/golanginstaller.go:83-92 | windows hosts use `unzip` and others `untarGz` into the toolchain directory; the extractor's error is wrapped as "error unzipping Go archive: …" or "error untarring Go archive: …"; extraction never downloads or removes a file |
| Installer.DownloadAndInstallGo | internal/golanginstaller/golanginstaller.go:61-95 | the first operation downloads `https://golang.org/dl/<archive name>` to the temporary directory; a failed download gives "error downloading Go archive: …" and nothing more; otherwise the operations are the download, then exactly the extraction step's operations, then the removal of the archive, and the extraction step's error is the result; no later operation downloads |
| Installer.EnsureGo | internal/golanginstaller/golanginstaller.go:33-52 | when `<toolchain>/go` exists nothing is done; a version lookup error is wrapped as "error fetching latest Go version: …" with nothing done, a panic passes through; success exactly when installed or the latest version installs; only the latest version's archive is downloaded; when the lookup succeeds the operations are exactly those of installing that version, and its error is wrapped as "error downloading and installing Go: …" |

## Left out

- Concurrency is left out: the walker goroutine, the channel with capacity 5,
  the per-project goroutines and the `WaitGroup`s. Projects are a sequence,
  and `Builder.RunUnits` shows that their order does not matter to any one
  project. Blocking on a full channel is not modelled.
- The hashers shared between concurrent projects are left out. So is the data
  race they allow, and the aliasing of `append` on `defaultEnv`. The model
  threads one hasher state through the projects in turn.
- SHA-1, SHA-256 and SHA-512 themselves are left out. The digest is an oracle;
  only the digest sizes are stated.
- Running `go test` and `go build`, `os.Lstat`, `os.ReadFile`, `os.WriteFile`,
  `os.MkdirAll` and `os.Stat` are oracles. Their outcomes are parameters.
- `loadEnvironmentFile` and `os.Environ` are left out. Their lines are the
  `environ` and `envFile` parameters of `Builder.NewGoBuilder`. `os.Getenv("PATH")`
  and the list separator are parameters of `Builder.BuildEnv`.
- Timing, colours and log messages are left out. They change no decision.
- `downloadFile` (HTTP, status check, copy) is one oracle outcome of the
  `Download` operation. JSON decoding, gzip, tar and zip decoding are oracles
  that produce the entry lists.
- `filepath.Join`/`Clean`/`Dir` are uninterpreted in the installer. In the
  walker and builder they are modelled only on clean absolute paths.
  Relative paths, `..` and repeated separators are not modelled there.
- Text.ToLower: only runes whose lower case is ASCII are lowered. This is
  enough to decide equality with `main.go`. Other runes are left unchanged.
- Builder.SumLabels: a failing `hasher.Write` is modelled as leaving the
  hasher as it was. Go's hash writers never fail, so this branch is an
  oracle choice.
- Builder.SumTargets: the hasher map is iterated in one fixed order for every
  artifact. Go may use a different order per `range`, which only reorders
  the digest files written.
- Builder.SumTargets: "a digest file is written for a target and key exactly
  when…" is stated with the target and key as witnesses. Two different
  (artifact, key) pairs whose file names render the same are not told apart.
- Builder.PersistLog: the order of the two log writes is one parameter
  (`World.stdoutLogFirst`) rather than a fresh choice per run. A failed log
  write is only printed by the source, so it is skipped with no error.
- `NewProjectWalkerProcessor`'s creation of the build directory is left out:
  it is I/O with no decision.
- internal/config/config.go (YAML loading, flags, `os.Exit`) is not part of
  this model, and neither is cmd/autobuild-go/main.go (argument heuristic,
  git check, wiring).
- cmd/autobuild-go/releases.go (GitHub client), gopkginstaller.go,
  colors.go and utils.go are not part of this model.
- The walker gives every project its directory's base name as AppName. Two
  `main.go` files in directories with the same base name, such as
  `/a/cmd/main.go` and `/b/cmd/main.go`, write the same artifact and digest
  files. The model keeps this behaviour and no lemma excludes it.

=== FILE: builder.dfy ===
/** The build orchestrator: per discovered project, the test, build and hash
    stages, in that order, over the target matrix. External programs, the file
    system and the digest algorithms are given as a `World` of oracles; what
    the stages do is recorded as a sequence of effects. */
module Builder {
  import opened Wrappers
  import opened Paths
  import opened Models
  import opened Targets
  import opened Hashing

  /** An invocation of an external program. */
  datatype Command = Command(program: Path, args: seq<string>, dir: Path, env: seq<string>)

  /** How an external program ended, with its captured output on failure. */
  datatype ExecResult = ExecOk | ExecFailed(err: string, stdout: string, stderr: string)

  /** What a stage does outside the process. */
  datatype Effect =
    | Exec(cmd: Command)
    | WriteLog(log: Path, contents: string)
    | WriteSidecar(path: string, hex: string)

  /** The outside world seen by the stages. */
  datatype World = World(
    exec: Command -> ExecResult,                   // runs a command to completion
    present: Path -> bool,                         // os.Lstat does not report IsNotExist
    readFile: Path -> Result<seq<byte>, string>,   // os.ReadFile
    hasherAccepts: (string, seq<byte>) -> bool,    // hasher.Write by key succeeds
    digest: DigestFn,                              // the digest algorithms
    writeFile: string -> bool,                     // os.WriteFile of a log or digest file succeeds
    stdoutLogFirst: bool)                          // how persistLog's two-entry map is iterated

  /** The builder's state. `hasherOrder` is the order in which the hasher map
      is iterated. */
  datatype GoBuilder = GoBuilder(
    toolchainPath: Path,
    goRootPath: Path,
    goPathPath: Path,
    targets: seq<Target>,
    defaultEnv: seq<string>,
    hashers: map<string, Hasher>,
    hasherOrder: seq<string>,
    stages: set<string>)

  /** The result of one stage: its effects and its error, if any. */
  datatype StageRun = StageRun(effects: seq<Effect>, err: Option<string>)

  /** The result of the hash stage, with the hasher state it leaves behind. */
  datatype HashRun = HashRun(effects: seq<Effect>, hashers: map<string, Hasher>, err: Option<string>)

  /** How one project's pipeline ended. */
  datatype UnitOutcome = Completed | TestFailed(msg: string) | BuildFailed(msg: string) | HashFailed(msg: string)

  /** Everything one project's pipeline did. */
  datatype UnitRun = UnitRun(effects: seq<Effect>, outcome: UnitOutcome)

  /** The digest algorithm behind each hasher key. */
  const HasherAlgos: map<string, Algo> := map["sha256" := SHA256, "sha512" := SHA512, "sha1" := SHA1]

  /** The stage names the pipeline looks for. */
  const KnownStages: set<string> := {"test", "build", "hash"}

  /** Every hasher is freshly reset. */
  predicate AllReset(hs: map<string, Hasher>)
  {
    forall l :: l in hs ==> IsReset(hs[l])
  }

  /** The labels in `order` all name hashers. */
  predicate Labels(order: seq<string>, hs: map<string, Hasher>)
  {
    forall i :: 0 <= i < |order| ==> order[i] in hs
  }

  /** The state invariant of a builder between projects. */
  predicate Valid(g: GoBuilder)
  {
    AllReset(g.hashers) && Enumerates(g.hasherOrder, g.hashers)
  }

  /** `NewGoBuilder`: the target matrix, the base environment (process
      environment plus the lines of the user's environment file), fresh
      hashers and the set of configured stage names. */
  function NewGoBuilder(toolchainPath: Path, conf: SelectedConfig, osOrder: seq<string>, hasherOrder: seq<string>,
                        environ: seq<string>, envFile: seq<string>): (g: GoBuilder)
    requires Enumerates(osOrder, conf.profile.os)
    requires Enumerates(hasherOrder, HasherAlgos)
    ensures Valid(g)
    ensures forall l :: l in g.hashers <==> l in HasherAlgos
    ensures forall l :: l in g.hashers ==> g.hashers[l].algo == HasherAlgos[l]
    ensures forall s :: s in g.stages <==> s in conf.profile.stages
    ensures g.targets == ExpandTargets(conf.profile.os, osOrder)
    ensures g.goRootPath == Join(toolchainPath, "go") && g.goPathPath == Join(toolchainPath, "gopath")
    ensures g.defaultEnv == environ + envFile
  {
    GoBuilder(
      toolchainPath,
      Join(toolchainPath, "go"),
      Join(toolchainPath, "gopath"),
      ExpandTargets(conf.profile.os, osOrder),
      environ + envFile,
      map l | l in HasherAlgos :: Hasher(HasherAlgos[l], []),
      hasherOrder,
      set s | s in conf.profile.stages)
  }

  // ---------------------------------------------------------------------------
  // Environment

  /** The value of `key` in an environment list; as in `os/exec`, the last
      entry for a key wins. */
  function EnvLookup(env: seq<string>, key: string): Option<string>
  {
    if env == [] then None
    else if key + "=" <= env[|env| - 1] then Some(env[|env| - 1][|key| + 1..])
    else EnvLookup(env[..|env| - 1], key)
  }

  /** The environment of every command: the base environment extended, in
      `Build`, with the toolchain's GOPATH, GOROOT and a PATH led by its bin
      directory. `pathEnv` is the process's PATH and `listSep` the platform's
      list separator. */
  function BuildEnv(g: GoBuilder, pathEnv: string, listSep: char): seq<string>
  {
    g.defaultEnv + [
      "GOPATH=" + Render(g.goPathPath),
      "GOROOT=" + Render(g.goRootPath),
      "PATH=" + Render(Join(g.goRootPath, "bin")) + [listSep] + pathEnv]
  }

  /** The environment of one cross-compilation: the shared one plus GOOS and GOARCH. */
  function TargetEnv(env: seq<string>, t: Target): seq<string>
  {
    env + ["GOOS=" + t.goos, "GOARCH=" + t.goarch]
  }

  // ---------------------------------------------------------------------------
  // Names

  /** The `go` binary of the toolchain. */
  function GoTool(g: GoBuilder): Path
  {
    g.goRootPath + ["bin", "go"]
  }

  /** `<AppName>-<GOOS>-<GOARCH><EXECSUFFIX>`. */
  function ArtifactName(appName: string, t: Target): string
  {
    appName + "-" + t.goos + "-" + t.goarch + t.execSuffix
  }

  /** Where the build stage writes, and the hash stage reads, one artifact. */
  function ArtifactPath(p: Project, t: Target): Path
  {
    Join(p.buildDir, ArtifactName(p.appName, t))
  }

  /** The digest file of an artifact for one hasher key. */
  function SidecarPath(artifact: Path, key: string): string
  {
    Render(artifact) + "." + key
  }

  /** Captured standard output of a failed test run. */
  function StdoutLog(p: Project): Path
  {
    Join(p.buildDir, "build-" + p.appName + ".log")
  }

  /** Captured standard error of a failed test run. */
  function StderrLog(p: Project): Path
  {
    Join(p.buildDir, "error-" + p.appName + ".log")
  }

  /** `go test -v -coverprofile=<BuildDir>/coverage-<AppName>.txt ./...` in the module root. */
  function TestCommand(g: GoBuilder, env: seq<string>, p: Project): Command
  {
    Command(GoTool(g), ["test", "-v", "-coverprofile=" + Render(p.buildDir) + "/coverage-" + p.appName + ".txt", "./..."],
            p.rootDir, env)
  }

  /** `go build -o <artifact> <AppMainSrcDir>` in the module root, for one target. */
  function BuildCommand(g: GoBuilder, env: seq<string>, p: Project, t: Target): Command
  {
    Command(GoTool(g), ["build", "-o", Render(ArtifactPath(p, t)), Render(p.appMainSrcDir)],
            p.rootDir, TargetEnv(env, t))
  }

  /** The digest file the hash stage writes for one artifact and key. */
  function Sidecar(artifact: Path, key: string, algo: Algo, contents: seq<byte>, digest: DigestFn): Effect
  {
    WriteSidecar(SidecarPath(artifact, key), HexEncode(digest(algo, contents)))
  }

  // ---------------------------------------------------------------------------
  // Stages

  /** `persistLog`: each captured stream goes to its log file, in the order
      the two-entry map is iterated; a log whose write fails is skipped. */
  function PersistLog(p: Project, stdout: string, stderr: string, w: World): (r: seq<Effect>)
    ensures |r| <= 2
    ensures WriteLog(StdoutLog(p), stdout) in r <==> w.writeFile(Render(StdoutLog(p)))
    ensures WriteLog(StderrLog(p), stderr) in r <==> w.writeFile(Render(StderrLog(p)))
    ensures forall e :: e in r ==> e == WriteLog(StdoutLog(p), stdout) || e == WriteLog(StderrLog(p), stderr)
    ensures |r| == 2 ==> r[0] == (if w.stdoutLogFirst then WriteLog(StdoutLog(p), stdout) else WriteLog(StderrLog(p), stderr))
  {
    var out := WriteLog(StdoutLog(p), stdout);
    var err := WriteLog(StderrLog(p), stderr);
    assert Base(StdoutLog(p))[0] == 'b' && Base(StderrLog(p))[0] == 'e';
    assert out != err;
    var outs := if w.writeFile(Render(StdoutLog(p))) then [out] else [];
    var errs := if w.writeFile(Render(StderrLog(p))) then [err] else [];
    if w.stdoutLogFirst then outs + errs else errs + outs
  }

  /** `testExec`: runs the tests; on failure persists both captured streams. */
  function TestExec(g: GoBuilder, env: seq<string>, p: Project, w: World): (r: StageRun)
    ensures r.err.None? <==> w.exec(TestCommand(g, env, p)).ExecOk?
    ensures |r.effects| > 0 && r.effects[0] == Exec(TestCommand(g, env, p))
    ensures r.err.None? ==> |r.effects| == 1
    ensures r.err.Some? ==>
              var res := w.exec(TestCommand(g, env, p));
              && r.effects == [Exec(TestCommand(g, env, p))] + PersistLog(p, res.stdout, res.stderr, w)
              && r.err.value == "error testing " + p.appName + ": " + res.err + ". Logs created"
  {
    var cmd := TestCommand(g, env, p);
    match w.exec(cmd)
    case ExecOk => StageRun([Exec(cmd)], None)
    case ExecFailed(err, out, errOut) =>
      StageRun([Exec(cmd)] + PersistLog(p, out, errOut, w),
               Some("error testing " + p.appName + ": " + err + ". Logs created"))
  }

  /** The compilation for target `t` succeeds. */
  predicate BuildsOk(g: GoBuilder, env: seq<string>, p: Project, t: Target, w: World)
  {
    w.exec(BuildCommand(g, env, p, t)).ExecOk?
  }

  /** The first index holding `false`. */
  function FirstFalse(bs: seq<bool>): (r: Option<nat>)
    ensures r.Some? ==> r.value < |bs| && !bs[r.value]
    ensures r.Some? ==> forall i :: 0 <= i < r.value ==> bs[i]
    ensures r.None? <==> forall i :: 0 <= i < |bs| ==> bs[i]
  {
    if bs == [] then None
    else if !bs[0] then Some(0)
    else
      match FirstFalse(bs[1..])
      case None => None
      case Some(k) => Some(k + 1)
  }

  /** The first target, in list order, whose compilation fails. */
  function FirstBuildFailure(g: GoBuilder, env: seq<string>, p: Project, targets: seq<Target>, w: World): (r: Option<nat>)
    ensures r.Some? ==> r.value < |targets| && !BuildsOk(g, env, p, targets[r.value], w)
    ensures r.Some? ==> forall i :: 0 <= i < r.value ==> BuildsOk(g, env, p, targets[i], w)
    ensures r.None? <==> forall i :: 0 <= i < |targets| ==> BuildsOk(g, env, p, targets[i], w)
  {
    FirstFalse(BuildOutcomes(g, env, p, targets, w))
  }

  /** Whether each target compiles. */
  function BuildOutcomes(g: GoBuilder, env: seq<string>, p: Project, targets: seq<Target>, w: World): (r: seq<bool>)
    ensures |r| == |targets|
    ensures forall i :: 0 <= i < |targets| ==> (r[i] <==> BuildsOk(g, env, p, targets[i], w))
  {
    seq(|targets|, i requires 0 <= i < |targets| => BuildsOk(g, env, p, targets[i], w))
  }

  /** The compilations of the first `n` targets. */
  function BuildCommands(g: GoBuilder, env: seq<string>, p: Project, targets: seq<Target>, n: nat): (r: seq<Effect>)
    requires n <= |targets|
    ensures |r| == n
    ensures forall i :: 0 <= i < n ==> r[i] == Exec(BuildCommand(g, env, p, targets[i]))
  {
    seq(n, i requires 0 <= i < n => Exec(BuildCommand(g, env, p, targets[i])))
  }

  /** The error of a failed compilation: the target, the error and both captured streams. */
  function BuildError(t: Target, res: ExecResult): string
  {
    match res
    case ExecFailed(err, out, errOut) => "error building for " + t.goos + "/" + t.goarch + ": " + err + "\n" + out + "\n" + errOut
    case ExecOk => ""
  }

  /** `buildExec`: compiles for each target in order and stops at the first failure. */
  function BuildExec(g: GoBuilder, env: seq<string>, p: Project, targets: seq<Target>, w: World): (r: StageRun)
    ensures |r.effects| <= |targets| && r.effects == BuildCommands(g, env, p, targets, |r.effects|)
    ensures forall i :: 0 <= i < |r.effects| - 1 ==> BuildsOk(g, env, p, targets[i], w)
    ensures r.err.None? <==>
              |r.effects| == |targets| && forall i :: 0 <= i < |targets| ==> BuildsOk(g, env, p, targets[i], w)
    ensures r.err.Some? ==> |r.effects| > 0 && !BuildsOk(g, env, p, targets[|r.effects| - 1], w)
  {
    match FirstBuildFailure(g, env, p, targets, w)
    case None => StageRun(BuildCommands(g, env, p, targets, |targets|), None)
    case Some(k) =>
      StageRun(BuildCommands(g, env, p, targets, k + 1),
               Some(BuildError(targets[k], w.exec(BuildCommand(g, env, p, targets[k])))))
  }

  /** The hasher `key` accepts the artifact's bytes and its digest file is
      written. */
  predicate Hashed(w: World, artifact: Path, key: string, contents: seq<byte>)
  {
    w.hasherAccepts(key, contents) && w.writeFile(SidecarPath(artifact, key))
  }

  /** The hashers of one artifact, in key order: a key whose write fails is
      skipped, otherwise its digest is taken, the hasher is reset and the hex
      digest is written next to the artifact. */
  function SumLabels(labels: seq<string>, artifact: Path, contents: seq<byte>, w: World, hs: map<string, Hasher>)
    : (r: (seq<Effect>, map<string, Hasher>))
    requires Labels(labels, hs)
    requires AllReset(hs)
    ensures r.1 == hs
    ensures |r.0| <= |labels|
    ensures forall e :: e in r.0 ==>
              exists i :: 0 <= i < |labels| && Hashed(w, artifact, labels[i], contents)
                && e == Sidecar(artifact, labels[i], hs[labels[i]].algo, contents, w.digest)
    ensures forall i :: 0 <= i < |labels| && Hashed(w, artifact, labels[i], contents)
              ==> Sidecar(artifact, labels[i], hs[labels[i]].algo, contents, w.digest) in r.0
  {
    if labels == [] then ([], hs)
    else
      var key := labels[0];
      if !w.hasherAccepts(key, contents) then
        SumLabels(labels[1..], artifact, contents, w, hs)
      else
        var h := Write(hs[key], contents);
        var hex := HexEncode(Sum(h, w.digest));
        WriteSumReset(hs[key], contents, w.digest);
        var hs' := hs[key := Reset(h)];
        assert hs' == hs;
        var path := SidecarPath(artifact, key);
        var written := if w.writeFile(path) then [WriteSidecar(path, hex)] else [];
        var rest := SumLabels(labels[1..], artifact, contents, w, hs');
        (written + rest.0, rest.1)
  }

  /** An artifact the hash stage finds and reads. */
  predicate Readable(w: World, artifact: Path)
  {
    w.present(artifact) && w.readFile(artifact).Success?
  }

  /** The artifact of target `t` is found and read, and the hasher `key`
      digests it and has its digest file written. */
  predicate TargetHashed(w: World, p: Project, t: Target, key: string)
  {
    Readable(w, ArtifactPath(p, t)) && Hashed(w, ArtifactPath(p, t), key, w.readFile(ArtifactPath(p, t)).value)
  }

  /** The digest file of target `t`'s artifact for hasher `key`. */
  function TargetSidecar(w: World, p: Project, t: Target, key: string, hs: map<string, Hasher>): Effect
    requires key in hs && Readable(w, ArtifactPath(p, t))
  {
    Sidecar(ArtifactPath(p, t), key, hs[key].algo, w.readFile(ArtifactPath(p, t)).value, w.digest)
  }

  /** The targets of one project, in order: a missing or unreadable artifact
      is skipped and the remaining targets are still hashed. */
  function SumTargets(targets: seq<Target>, p: Project, order: seq<string>, w: World, hs: map<string, Hasher>)
    : (r: (seq<Effect>, map<string, Hasher>))
    requires Labels(order, hs)
    requires AllReset(hs)
    ensures r.1 == hs
    ensures forall e :: e in r.0 ==>
              exists j, i :: 0 <= j < |targets| && 0 <= i < |order| && TargetHashed(w, p, targets[j], order[i])
                && e == TargetSidecar(w, p, targets[j], order[i], hs)
    ensures forall j, i :: 0 <= j < |targets| && 0 <= i < |order| && TargetHashed(w, p, targets[j], order[i])
              ==> TargetSidecar(w, p, targets[j], order[i], hs) in r.0
  {
    if targets == [] then ([], hs)
    else
      var artifact := ArtifactPath(p, targets[0]);
      var rest := SumTargets(targets[1..], p, order, w, hs);
      if !w.present(artifact) then rest
      else
        match w.readFile(artifact)
        case Failure(_) => rest
        case Success(contents) =>
          var here := SumLabels(order, artifact, contents, w, hs);
          (here.0 + rest.0, rest.1)
  }

  /** `sumExec`: hashes every artifact of the project; it never reports an error. */
  function SumExec(g: GoBuilder, p: Project, w: World, hs: map<string, Hasher>): (r: HashRun)
    requires Labels(g.hasherOrder, hs)
    requires AllReset(hs)
    ensures r.err.None?
    ensures r.hashers == hs
  {
    var done := SumTargets(g.targets, p, g.hasherOrder, w, hs);
    HashRun(done.0, done.1, None)
  }

  /** The test stage when configured; nothing otherwise. */
  function TestStage(g: GoBuilder, env: seq<string>, p: Project, w: World): StageRun
  {
    if "test" in g.stages then TestExec(g, env, p, w) else StageRun([], None)
  }

  /** The build stage when configured; nothing otherwise. */
  function BuildStage(g: GoBuilder, env: seq<string>, p: Project, w: World): StageRun
  {
    if "build" in g.stages then BuildExec(g, env, p, g.targets, w) else StageRun([], None)
  }

  /** The hash stage when configured; nothing otherwise. */
  function HashStage(g: GoBuilder, p: Project, w: World, hs: map<string, Hasher>): (r: HashRun)
    requires Labels(g.hasherOrder, hs)
    requires AllReset(hs)
    ensures r.err.None? && r.hashers == hs
  {
    if "hash" in g.stages then SumExec(g, p, w, hs) else HashRun([], hs, None)
  }

  /** One project's pipeline: the enabled stages in the order test, build,
      hash, stopping at the first stage that fails. */
  function RunUnit(g: GoBuilder, env: seq<string>, p: Project, w: World, hs: map<string, Hasher>): (r: (UnitRun, map<string, Hasher>))
    requires Labels(g.hasherOrder, hs)
    requires AllReset(hs)
    ensures r.1 == hs
    ensures !r.0.outcome.HashFailed?
  {
    var test := TestStage(g, env, p, w);
    if test.err.Some? then (UnitRun(test.effects, TestFailed(test.err.value)), hs)
    else
      var build := BuildStage(g, env, p, w);
      if build.err.Some? then (UnitRun(test.effects + build.effects, BuildFailed(build.err.value)), hs)
      else
        var hash := HashStage(g, p, w, hs);
        var effects := test.effects + build.effects + hash.effects;
        match hash.err
        case Some(msg) => (UnitRun(effects, HashFailed(msg)), hash.hashers)
        case None => (UnitRun(effects, Completed), hash.hashers)
  }

  /** The projects one after another, threading the shared hasher state. */
  function RunUnits(g: GoBuilder, env: seq<string>, units: seq<Project>, w: World, hs: map<string, Hasher>): (r: seq<UnitRun>)
    requires Labels(g.hasherOrder, hs)
    requires AllReset(hs)
    ensures |r| == |units|
    ensures forall i :: 0 <= i < |units| ==> r[i] == RunUnit(g, env, units[i], w, hs).0
  {
    if units == [] then []
    else
      var first := RunUnit(g, env, units[0], w, hs);
      var rest := RunUnits(g, env, units[1..], w, first.1);
      ConsRuns(p => RunUnit(g, env, p, w, hs).0, units, rest);
      [first.0] + rest
  }

  /** Runs of the first project followed by runs of the others are the runs
      of all the projects, index by index. */
  lemma ConsRuns(run: Project -> UnitRun, units: seq<Project>, rest: seq<UnitRun>)
    requires units != [] && |rest| == |units| - 1
    requires forall i :: 0 <= i < |rest| ==> rest[i] == run(units[1..][i])
    ensures forall i :: 0 <= i < |units| ==> ([run(units[0])] + rest)[i] == run(units[i])
  {
    forall i | 0 <= i < |units| ensures ([run(units[0])] + rest)[i] == run(units[i]) {
      if i > 0 {
        assert units[1..][i - 1] == units[i];
      }
    }
  }

  /** `Build`: extends the environment once, then runs every project's pipeline. */
  function Build(g: GoBuilder, units: seq<Project>, pathEnv: string, listSep: char, w: World): (r: seq<UnitRun>)
    requires Valid(g)
    ensures |r| == |units|
    ensures forall i :: 0 <= i < |units| ==> r[i] == RunUnit(g, BuildEnv(g, pathEnv, listSep), units[i], w, g.hashers).0
  {
    RunUnits(g, BuildEnv(g, pathEnv, listSep), units, w, g.hashers)
  }
}

=== FILE: builder_facts.dfy ===
/** Properties of the build orchestrator: stage order and gating, fail-fast
    building, the hash stage's file names and contents, and the environment. */
module BuilderFacts {
  import opened Wrappers
  import opened Paths
  import opened Models
  import opened Targets
  import opened Hashing
  import opened Builder

  /** The stage an effect belongs to: 0 test, 1 build, 2 hash. */
  function StageRank(e: Effect): nat
  {
    match e
    case Exec(cmd) => if cmd.args != [] && cmd.args[0] == "test" then 0 else 1
    case WriteLog(_, _) => 0
    case WriteSidecar(_, _) => 2
  }

  predicate AllRank(effects: seq<Effect>, rank: nat)
  {
    forall e :: e in effects ==> StageRank(e) == rank
  }

  lemma TestExecRank(g: GoBuilder, env: seq<string>, p: Project, w: World)
    ensures AllRank(TestExec(g, env, p, w).effects, 0)
  {
    var r := TestExec(g, env, p, w);
    var cmd := TestCommand(g, env, p);
    assert StageRank(Exec(cmd)) == 0;
    if r.err.Some? {
      var res := w.exec(cmd);
      var logs := PersistLog(p, res.stdout, res.stderr, w);
      assert r.effects == [Exec(cmd)] + logs;
      assert AllRank(logs, 0);
    }
  }

  lemma BuildExecRank(g: GoBuilder, env: seq<string>, p: Project, targets: seq<Target>, w: World)
    ensures AllRank(BuildExec(g, env, p, targets, w).effects, 1)
  {
    var r := BuildExec(g, env, p, targets, w);
    forall e | e in r.effects ensures StageRank(e) == 1 {
      var i :| 0 <= i < |r.effects| && r.effects[i] == e;
      assert r.effects[i] == Exec(BuildCommand(g, env, p, targets[i]));
    }
  }

  lemma SumExecRank(g: GoBuilder, p: Project, w: World, hs: map<string, Hasher>)
    requires Labels(g.hasherOrder, hs)
    requires AllReset(hs)
    ensures AllRank(SumExec(g, p, w, hs).effects, 2)
  {
    var r := SumExec(g, p, w, hs);
    forall e | e in r.effects ensures StageRank(e) == 2 {
    }
  }

  lemma StageRanks(g: GoBuilder, env: seq<string>, p: Project, w: World, hs: map<string, Hasher>)
    requires Labels(g.hasherOrder, hs)
    requires AllReset(hs)
    ensures AllRank(TestStage(g, env, p, w).effects, 0)
    ensures AllRank(BuildStage(g, env, p, w).effects, 1)
    ensures AllRank(HashStage(g, p, w, hs).effects, 2)
  {
    assert AllRank(TestStage(g, env, p, w).effects, 0) by {
      TestExecRank(g, env, p, w);
    }
    assert AllRank(BuildStage(g, env, p, w).effects, 1) by {
      BuildExecRank(g, env, p, g.targets, w);
    }
    assert AllRank(HashStage(g, p, w, hs).effects, 2) by {
      SumExecRank(g, p, w, hs);
    }
  }

  /** What a project does after its test stage: the build stage when the tests
      passed, then the hash stage when the build passed too. */
  function Later(g: GoBuilder, env: seq<string>, p: Project, w: World, hs: map<string, Hasher>): seq<Effect>
    requires Labels(g.hasherOrder, hs)
    requires AllReset(hs)
  {
    if TestStage(g, env, p, w).err.Some? then []
    else if BuildStage(g, env, p, w).err.Some? then BuildStage(g, env, p, w).effects
    else BuildStage(g, env, p, w).effects + HashStage(g, p, w, hs).effects
  }

  lemma RunUnitEffects(g: GoBuilder, env: seq<string>, p: Project, w: World, hs: map<string, Hasher>)
    requires Labels(g.hasherOrder, hs)
    requires AllReset(hs)
    ensures RunUnit(g, env, p, w, hs).0.effects == TestStage(g, env, p, w).effects + Later(g, env, p, w, hs)
  {
    var test := TestStage(g, env, p, w);
    var build := BuildStage(g, env, p, w);
    var hash := HashStage(g, p, w, hs);
    var effects := RunUnit(g, env, p, w, hs).0.effects;
    if test.err.Some? {
      assert effects == test.effects;
      assert Later(g, env, p, w, hs) == [];
      assert test.effects + [] == test.effects;
    } else if build.err.Some? {
      assert effects == test.effects + build.effects;
    } else {
      assert effects == test.effects + build.effects + hash.effects;
      ConcatAssoc(test.effects, build.effects, hash.effects);
    }
  }

  lemma ConcatAssoc(a: seq<Effect>, b: seq<Effect>, c: seq<Effect>)
    ensures a + b + c == a + (b + c)
  {
  }

  lemma ConcatTail(a: seq<Effect>, b: seq<Effect>)
    ensures forall i :: |a| <= i < |a + b| ==> (a + b)[i] in b
  {
    forall i | |a| <= i < |a + b| ensures (a + b)[i] in b {
      assert (a + b)[i] == b[i - |a|];
    }
  }

  lemma EmptyThenConcat(a: seq<Effect>, b: seq<Effect>, c: seq<Effect>)
    requires a == []
    ensures a + b + c == b + c
  {
  }

  /** Effects whose stages never go backwards. */
  predicate InStageOrder(effects: seq<Effect>)
  {
    forall i, j :: 0 <= i < j < |effects| ==> StageRank(effects[i]) <= StageRank(effects[j])
  }

  lemma PrependInOrder(a: seq<Effect>, b: seq<Effect>, r: nat)
    requires AllRank(a, r) && InStageOrder(b)
    requires forall e :: e in b ==> r <= StageRank(e)
    ensures InStageOrder(a + b)
  {
    var ab := a + b;
    forall i, j | 0 <= i < j < |ab| ensures StageRank(ab[i]) <= StageRank(ab[j]) {
      if j < |a| {
        assert ab[i] == a[i] && ab[j] == a[j];
        assert a[i] in a && a[j] in a;
      } else if i < |a| {
        assert ab[i] == a[i] && ab[j] == b[j - |a|];
        assert a[i] in a && b[j - |a|] in b;
      } else {
        assert ab[i] == b[i - |a|] && ab[j] == b[j - |a|];
      }
    }
  }

  lemma AllRankInOrder(a: seq<Effect>, r: nat)
    requires AllRank(a, r)
    ensures InStageOrder(a)
  {
    forall i, j | 0 <= i < j < |a| ensures StageRank(a[i]) <= StageRank(a[j]) {
      assert a[i] in a && a[j] in a;
    }
  }

  /** Whatever order the configuration lists the stages in, a project's
      effects come in stage order: every test effect before every build
      effect, every build effect before every digest file. */
  lemma StagesInOrder(g: GoBuilder, env: seq<string>, p: Project, w: World, hs: map<string, Hasher>)
    requires Labels(g.hasherOrder, hs)
    requires AllReset(hs)
    ensures InStageOrder(RunUnit(g, env, p, w, hs).0.effects)
  {
    var test := TestStage(g, env, p, w).effects;
    var build := BuildStage(g, env, p, w).effects;
    var hash := HashStage(g, p, w, hs).effects;
    RunUnitEffects(g, env, p, w, hs);
    StageRanks(g, env, p, w, hs);
    AllRankInOrder(hash, 2);
    PrependInOrder(build, hash, 1);
    AllRankInOrder(build, 1);
    var later := Later(g, env, p, w, hs);
    assert InStageOrder(later);
    PrependInOrder(test, later, 0);
  }

  /** A failing test stops the project: after the test command, the only
      effects are the writes of its captured output to
      `BuildDir/build-<AppName>.log` and `BuildDir/error-<AppName>.log`, and
      nothing is built or hashed. */
  lemma TestFailureStopsUnit(g: GoBuilder, env: seq<string>, p: Project, w: World, hs: map<string, Hasher>)
    requires Labels(g.hasherOrder, hs)
    requires AllReset(hs)
    requires "test" in g.stages
    requires w.exec(TestCommand(g, env, p)).ExecFailed?
    ensures var run := RunUnit(g, env, p, w, hs).0;
            var res := w.exec(TestCommand(g, env, p));
            && run.outcome == TestFailed("error testing " + p.appName + ": " + res.err + ". Logs created")
            && run.effects[0] == Exec(TestCommand(g, env, p))
            && forall i :: 1 <= i < |run.effects| ==>
                 || run.effects[i] == WriteLog(p.buildDir + ["build-" + p.appName + ".log"], res.stdout)
                 || run.effects[i] == WriteLog(p.buildDir + ["error-" + p.appName + ".log"], res.stderr)
  {
    var res := w.exec(TestCommand(g, env, p));
    var logs := PersistLog(p, res.stdout, res.stderr, w);
    var run := RunUnit(g, env, p, w, hs).0;
    assert run.effects == [Exec(TestCommand(g, env, p))] + logs;
    forall i | 1 <= i < |run.effects|
      ensures || run.effects[i] == WriteLog(p.buildDir + ["build-" + p.appName + ".log"], res.stdout)
              || run.effects[i] == WriteLog(p.buildDir + ["error-" + p.appName + ".log"], res.stderr)
    {
      assert run.effects[i] == logs[i - 1] && logs[i - 1] in logs;
    }
  }

  /** How a project's pipeline ends: its tests fail when the test stage is
      configured and the test command fails; otherwise its build fails when
      the build stage is configured and some target does not compile;
      otherwise it completes. */
  lemma RunUnitOutcome(g: GoBuilder, env: seq<string>, p: Project, w: World, hs: map<string, Hasher>)
    requires Labels(g.hasherOrder, hs)
    requires AllReset(hs)
    ensures var outcome := RunUnit(g, env, p, w, hs).0.outcome;
            var testFails := "test" in g.stages && w.exec(TestCommand(g, env, p)).ExecFailed?;
            var buildFails := "build" in g.stages && exists i :: 0 <= i < |g.targets| && !BuildsOk(g, env, p, g.targets[i], w);
            && (outcome.TestFailed? <==> testFails)
            && (outcome.BuildFailed? <==> !testFails && buildFails)
            && (outcome == Completed <==> !testFails && !buildFails)
            && (outcome.BuildFailed? ==> outcome.msg == BuildExec(g, env, p, g.targets, w).err.value)
  {
    var test := TestStage(g, env, p, w);
    assert test.err.Some? <==> "test" in g.stages && w.exec(TestCommand(g, env, p)).ExecFailed?;
    var build := BuildStage(g, env, p, w);
    assert build.err.Some? <==>
             "build" in g.stages && exists i :: 0 <= i < |g.targets| && !BuildsOk(g, env, p, g.targets[i], w);
    assert build.err.Some? ==> build.err == BuildExec(g, env, p, g.targets, w).err;
    OutcomeByStages(g, env, p, w, hs);
  }

  /** A project's outcome read off its test and build stages. */
  lemma OutcomeByStages(g: GoBuilder, env: seq<string>, p: Project, w: World, hs: map<string, Hasher>)
    requires Labels(g.hasherOrder, hs)
    requires AllReset(hs)
    ensures var outcome := RunUnit(g, env, p, w, hs).0.outcome;
            var test, build := TestStage(g, env, p, w), BuildStage(g, env, p, w);
            && (outcome.TestFailed? <==> test.err.Some?)
            && (outcome.BuildFailed? <==> test.err.None? && build.err.Some?)
            && (outcome == Completed <==> test.err.None? && build.err.None?)
            && (outcome.BuildFailed? ==> outcome.msg == build.err.value)
  {
    assert HashStage(g, p, w, hs).err.None?;
  }

  /** A build failure stops the project before hashing: no digest file is
      written, and the last thing done is the failing compilation. */
  lemma BuildFailureSkipsHash(g: GoBuilder, env: seq<string>, p: Project, w: World, hs: map<string, Hasher>)
    requires Labels(g.hasherOrder, hs)
    requires AllReset(hs)
    ensures var run := RunUnit(g, env, p, w, hs).0;
            run.outcome.BuildFailed? ==>
              && "build" in g.stages
              && (forall e :: e in run.effects ==> !e.WriteSidecar?)
              && run.effects[|run.effects| - 1].Exec?
              && w.exec(run.effects[|run.effects| - 1].cmd).ExecFailed?
  {
    var run := RunUnit(g, env, p, w, hs).0;
    if run.outcome.BuildFailed? {
      var test := TestStage(g, env, p, w);
      var build := BuildStage(g, env, p, w);
      RunUnitBuildFailed(g, env, p, w, hs);
      StageRanks(g, env, p, w, hs);
      var k := |build.effects| - 1;
      assert build.effects[k] == Exec(BuildCommand(g, env, p, g.targets[k]));
      assert run.effects[|run.effects| - 1] == build.effects[k];
    }
  }

  /** A project whose build failed ran the configured build stage after a
      passing (or skipped) test stage, and did nothing after it. */
  lemma RunUnitBuildFailed(g: GoBuilder, env: seq<string>, p: Project, w: World, hs: map<string, Hasher>)
    requires Labels(g.hasherOrder, hs)
    requires AllReset(hs)
    requires RunUnit(g, env, p, w, hs).0.outcome.BuildFailed?
    ensures "build" in g.stages && BuildExec(g, env, p, g.targets, w).err.Some?
    ensures BuildStage(g, env, p, w) == BuildExec(g, env, p, g.targets, w)
    ensures RunUnit(g, env, p, w, hs).0.effects == TestStage(g, env, p, w).effects + BuildStage(g, env, p, w).effects
  {
  }

  /** A failed build stage reports the failing target, its error and both
      captured output streams of that compilation. */
  lemma BuildExecError(g: GoBuilder, env: seq<string>, p: Project, targets: seq<Target>, w: World)
    ensures var r := BuildExec(g, env, p, targets, w);
            r.err.Some? ==>
              var t := targets[|r.effects| - 1];
              var res := w.exec(BuildCommand(g, env, p, t));
              && res.ExecFailed?
              && r.err.value == "error building for " + t.goos + "/" + t.goarch + ": " + res.err + "\n" + res.stdout + "\n" + res.stderr
  {
    var r := BuildExec(g, env, p, targets, w);
    var k := FirstBuildFailure(g, env, p, targets, w);
    if k.Some? {
      var i := k.value;
      var t := targets[i];
      var res := w.exec(BuildCommand(g, env, p, t));
      assert |r.effects| - 1 == i && r.err == Some(BuildError(t, res)) by {
        assert r == StageRun(BuildCommands(g, env, p, targets, i + 1), Some(BuildError(t, res)));
      }
      assert res.ExecFailed? by {
        assert !BuildsOk(g, env, p, t, w);
      }
      BuildErrorText(t, res);
    } else {
      assert r.err.None?;
    }
  }

  lemma BuildErrorText(t: Target, res: ExecResult)
    requires res.ExecFailed?
    ensures BuildError(t, res)
         == "error building for " + t.goos + "/" + t.goarch + ": " + res.err + "\n" + res.stdout + "\n" + res.stderr
  {
  }

  /** A stage acts only when it is configured and every earlier configured
      stage succeeded for this project. */
  lemma StageGating(g: GoBuilder, env: seq<string>, p: Project, w: World, hs: map<string, Hasher>)
    requires Labels(g.hasherOrder, hs)
    requires AllReset(hs)
    ensures var effects := RunUnit(g, env, p, w, hs).0.effects;
            var testPassed := "test" !in g.stages || w.exec(TestCommand(g, env, p)).ExecOk?;
            var buildPassed := "build" !in g.stages || BuildExec(g, env, p, g.targets, w).err.None?;
            forall e :: e in effects ==>
              && (StageRank(e) == 0 ==> "test" in g.stages)
              && (StageRank(e) == 1 ==> "build" in g.stages && testPassed)
              && (StageRank(e) == 2 ==> "hash" in g.stages && testPassed && buildPassed)
  {
    RunUnitEffects(g, env, p, w, hs);
    StageRanks(g, env, p, w, hs);
  }

  /** Stage names other than test, build and hash change nothing. */
  lemma UnknownStagesIgnored(g: GoBuilder, env: seq<string>, p: Project, w: World, hs: map<string, Hasher>)
    requires Labels(g.hasherOrder, hs)
    requires AllReset(hs)
    ensures RunUnit(g, env, p, w, hs) == RunUnit(g.(stages := g.stages * KnownStages), env, p, w, hs)
  {
    var g' := g.(stages := g.stages * KnownStages);
    assert ("test" in g.stages <==> "test" in g'.stages) && ("build" in g.stages <==> "build" in g'.stages)
        && ("hash" in g.stages <==> "hash" in g'.stages);
    assert TestStage(g, env, p, w) == TestStage(g', env, p, w) by {
      assert TestCommand(g, env, p) == TestCommand(g', env, p);
    }
    assert BuildStage(g, env, p, w) == BuildStage(g', env, p, w) by {
      BuildExecIgnoresStages(g, g', env, p, g.targets, w);
    }
    assert HashStage(g, p, w, hs) == HashStage(g', p, w, hs);
    SameStagesSameUnit(g, g', env, p, w, hs);
  }

  /** A project's pipeline is decided by what its three stages do. */
  lemma SameStagesSameUnit(g: GoBuilder, g': GoBuilder, env: seq<string>, p: Project, w: World, hs: map<string, Hasher>)
    requires Labels(g.hasherOrder, hs) && Labels(g'.hasherOrder, hs)
    requires AllReset(hs)
    requires TestStage(g, env, p, w) == TestStage(g', env, p, w)
    requires BuildStage(g, env, p, w) == BuildStage(g', env, p, w)
    requires HashStage(g, p, w, hs) == HashStage(g', p, w, hs)
    ensures RunUnit(g, env, p, w, hs) == RunUnit(g', env, p, w, hs)
  {
  }

  lemma BuildExecIgnoresStages(g: GoBuilder, g': GoBuilder, env: seq<string>, p: Project, targets: seq<Target>, w: World)
    requires g' == g.(stages := g'.stages)
    ensures BuildExec(g, env, p, targets, w) == BuildExec(g', env, p, targets, w)
  {
    assert forall t :: BuildCommand(g, env, p, t) == BuildCommand(g', env, p, t) by {
      assert GoTool(g) == GoTool(g');
    }
    var a := FirstBuildFailure(g, env, p, targets, w);
    assert a == FirstBuildFailure(g', env, p, targets, w) by {
      assert BuildOutcomes(g, env, p, targets, w) == BuildOutcomes(g', env, p, targets, w);
    }
    var n := if a.Some? then a.value + 1 else |targets|;
    assert BuildCommands(g, env, p, targets, n) == BuildCommands(g', env, p, targets, n);
    if a.Some? {
      var t := targets[a.value];
      assert BuildError(t, w.exec(BuildCommand(g, env, p, t))) == BuildError(t, w.exec(BuildCommand(g', env, p, t)));
      assert BuildExec(g, env, p, targets, w) == StageRun(BuildCommands(g, env, p, targets, n), Some(BuildError(t, w.exec(BuildCommand(g, env, p, t)))));
      assert BuildExec(g', env, p, targets, w) == StageRun(BuildCommands(g', env, p, targets, n), Some(BuildError(t, w.exec(BuildCommand(g', env, p, t)))));
    } else {
      assert BuildExec(g, env, p, targets, w) == StageRun(BuildCommands(g, env, p, targets, n), None);
      assert BuildExec(g', env, p, targets, w) == StageRun(BuildCommands(g', env, p, targets, n), None);
    }
  }

  /** A target whose artifact is missing or unreadable is passed over: the
      hash stage does exactly what it would do without that target, so the
      targets after it still get their digest files. */
  lemma {:induction false} SumTargetsSkip(targets: seq<Target>, p: Project, order: seq<string>, w: World,
                                          hs: map<string, Hasher>, j: nat)
    requires Labels(order, hs)
    requires AllReset(hs)
    requires j < |targets| && !Readable(w, ArtifactPath(p, targets[j]))
    ensures SumTargets(targets, p, order, w, hs) == SumTargets(targets[..j] + targets[j + 1..], p, order, w, hs)
  {
    if j == 0 {
      assert targets[..0] + targets[1..] == targets[1..];
    } else {
      var rest := targets[1..];
      assert rest[j - 1] == targets[j];
      SumTargetsSkip(rest, p, order, w, hs, j - 1);
      var without := targets[..j] + targets[j + 1..];
      assert without[0] == targets[0];
      assert without[1..] == rest[..j - 1] + rest[j..];
    }
  }

  /** Digest files follow the target list: hashing two lists in turn writes
      the first list's files, then the second's. */
  lemma {:induction false} SumTargetsAppend(a: seq<Target>, b: seq<Target>, p: Project, order: seq<string>, w: World,
                                            hs: map<string, Hasher>)
    requires Labels(order, hs)
    requires AllReset(hs)
    ensures SumTargets(a + b, p, order, w, hs).0 == SumTargets(a, p, order, w, hs).0 + SumTargets(b, p, order, w, hs).0
  {
    if a == [] {
      assert a + b == b;
    } else {
      assert (a + b)[0] == a[0];
      assert (a + b)[1..] == a[1..] + b;
      SumTargetsAppend(a[1..], b, p, order, w, hs);
      var artifact := ArtifactPath(p, a[0]);
      if Readable(w, artifact) {
        var here := SumLabels(order, artifact, w.readFile(artifact).value, w, hs).0;
        ConcatAssoc(here, SumTargets(a[1..], p, order, w, hs).0, SumTargets(b, p, order, w, hs).0);
      }
    }
  }

  // ---------------------------------------------------------------------------
  // Counting when everything succeeds

  lemma {:induction false} SumLabelsAllWritten(labels: seq<string>, artifact: Path, contents: seq<byte>, w: World, hs: map<string, Hasher>)
    requires Labels(labels, hs)
    requires AllReset(hs)
    requires forall i :: 0 <= i < |labels| ==> w.hasherAccepts(labels[i], contents) && w.writeFile(SidecarPath(artifact, labels[i]))
    ensures |SumLabels(labels, artifact, contents, w, hs).0| == |labels|
  {
    if labels != [] {
      SumLabelsAllWritten(labels[1..], artifact, contents, w, hs);
    }
  }

  /** Every hasher accepts every artifact and every digest file can be written. */
  ghost predicate HashWritesSucceed(w: World, order: seq<string>)
  {
    && (forall c, i :: 0 <= i < |order| ==> w.hasherAccepts(order[i], c))
    && (forall a, i :: 0 <= i < |order| ==> w.writeFile(SidecarPath(a, order[i])))
  }

  lemma {:induction false} SumTargetsAllWritten(targets: seq<Target>, p: Project, order: seq<string>, w: World, hs: map<string, Hasher>)
    requires Labels(order, hs)
    requires AllReset(hs)
    requires forall j :: 0 <= j < |targets| ==> Readable(w, ArtifactPath(p, targets[j]))
    requires HashWritesSucceed(w, order)
    ensures |SumTargets(targets, p, order, w, hs).0| == |targets| * |order|
  {
    if targets != [] {
      var rest := targets[1..];
      var total, tail := |SumTargets(targets, p, order, w, hs).0|, |SumTargets(rest, p, order, w, hs).0|;
      assert tail == |rest| * |order| by {
        assert forall j :: 0 <= j < |rest| ==> rest[j] == targets[j + 1];
        SumTargetsAllWritten(rest, p, order, w, hs);
      }
      assert total == |order| + tail by {
        SumTargetsStep(targets, p, order, w, hs);
      }
      MulPred(|targets|, |order|);
    }
  }

  /** One readable artifact adds one digest file per hasher. */
  lemma SumTargetsStep(targets: seq<Target>, p: Project, order: seq<string>, w: World, hs: map<string, Hasher>)
    requires Labels(order, hs)
    requires AllReset(hs)
    requires targets != [] && Readable(w, ArtifactPath(p, targets[0]))
    requires HashWritesSucceed(w, order)
    ensures |SumTargets(targets, p, order, w, hs).0| == |order| + |SumTargets(targets[1..], p, order, w, hs).0|
  {
    var artifact := ArtifactPath(p, targets[0]);
    var contents := w.readFile(artifact).value;
    forall i | 0 <= i < |order|
      ensures w.hasherAccepts(order[i], contents) && w.writeFile(SidecarPath(artifact, order[i]))
    {
    }
    SumLabelsAllWritten(order, artifact, contents, w, hs);
  }

  lemma MulPred(a: nat, b: nat)
    requires a > 0
    ensures a * b == b + (a - 1) * b
  {
  }

  /** With every artifact readable and every digest written, the hash stage
      writes one digest file per target and hasher and does nothing else. */
  lemma HashStageAllWritten(g: GoBuilder, p: Project, w: World, hs: map<string, Hasher>)
    requires Labels(g.hasherOrder, hs)
    requires AllReset(hs)
    requires "hash" in g.stages
    requires forall a :: w.present(a) && w.readFile(a).Success?
    requires HashWritesSucceed(w, g.hasherOrder)
    ensures |HashStage(g, p, w, hs).effects| == |g.targets| * |g.hasherOrder|
    ensures forall e :: e in HashStage(g, p, w, hs).effects ==> e.WriteSidecar?
  {
    assert HashStage(g, p, w, hs).effects == SumTargets(g.targets, p, g.hasherOrder, w, hs).0;
    forall j | 0 <= j < |g.targets| ensures Readable(w, ArtifactPath(p, g.targets[j])) {
    }
    SumTargetsAllWritten(g.targets, p, g.hasherOrder, w, hs);
  }

  /** With every command succeeding, the build stage compiles each target once. */
  lemma BuildStageAllOk(g: GoBuilder, env: seq<string>, p: Project, w: World)
    requires "build" in g.stages
    requires forall c :: w.exec(c) == ExecOk
    ensures BuildStage(g, env, p, w).err.None?
    ensures BuildStage(g, env, p, w).effects == BuildCommands(g, env, p, g.targets, |g.targets|)
  {
    var build := BuildExec(g, env, p, g.targets, w);
    assert forall i :: 0 <= i < |g.targets| ==> BuildsOk(g, env, p, g.targets[i], w);
    assert build.err.None?;
  }

  /** With stages {build, hash} and every outside operation succeeding, a
      project compiles once per target, writes one digest file per target and
      hasher, and never runs its tests. */
  lemma AllSucceedCounts(g: GoBuilder, env: seq<string>, p: Project, w: World, hs: map<string, Hasher>)
    requires Labels(g.hasherOrder, hs)
    requires AllReset(hs)
    requires g.stages == {"build", "hash"}
    requires forall c :: w.exec(c) == ExecOk
    requires forall a :: w.present(a) && w.readFile(a).Success?
    requires HashWritesSucceed(w, g.hasherOrder)
    ensures var run := RunUnit(g, env, p, w, hs).0;
            && run.outcome == Completed
            && |run.effects| == |g.targets| + |g.targets| * |g.hasherOrder|
            && (forall i :: 0 <= i < |g.targets| ==> run.effects[i] == Exec(BuildCommand(g, env, p, g.targets[i])))
            && (forall i :: |g.targets| <= i < |run.effects| ==> run.effects[i].WriteSidecar?)
            && (forall e :: e in run.effects ==> StageRank(e) != 0)
  {
    var test := TestStage(g, env, p, w);
    var build := BuildStage(g, env, p, w);
    var hash := HashStage(g, p, w, hs);
    assert build.err.None? && build.effects == BuildCommands(g, env, p, g.targets, |g.targets|) by {
      BuildStageAllOk(g, env, p, w);
    }
    assert |hash.effects| == |g.targets| * |g.hasherOrder| && forall e :: e in hash.effects ==> e.WriteSidecar? by {
      HashStageAllWritten(g, p, w, hs);
    }
    var effects := build.effects + hash.effects;
    BuildThenHash(g, env, p, w, hs);
    assert AllRank(build.effects, 1) && AllRank(hash.effects, 2) by {
      StageRanks(g, env, p, w, hs);
    }
    assert forall i :: |g.targets| <= i < |effects| ==> effects[i].WriteSidecar? by {
      ConcatTail(build.effects, hash.effects);
    }
  }

  /** Without a test stage and with a passing build, a project's effects are
      the build's followed by the hash stage's. */
  lemma BuildThenHash(g: GoBuilder, env: seq<string>, p: Project, w: World, hs: map<string, Hasher>)
    requires Labels(g.hasherOrder, hs)
    requires AllReset(hs)
    requires "test" !in g.stages
    requires BuildStage(g, env, p, w).err.None?
    ensures RunUnit(g, env, p, w, hs).0
              == UnitRun(BuildStage(g, env, p, w).effects + HashStage(g, p, w, hs).effects, Completed)
  {
    var test := TestStage(g, env, p, w);
    assert test == StageRun([], None);
    assert HashStage(g, p, w, hs).err.None?;
    EmptyThenConcat(test.effects, BuildStage(g, env, p, w).effects, HashStage(g, p, w, hs).effects);
  }

  // ---------------------------------------------------------------------------
  // The hash stage's outputs

  /** Every digest file sits next to an artifact the build stage names with
      `-o`, carries its hasher's key as extension, and holds the lower-case
      hex digest of that artifact's bytes alone, two characters per digest
      byte. */
  lemma SidecarContents(g: GoBuilder, env: seq<string>, p: Project, w: World, hs: map<string, Hasher>)
    requires Labels(g.hasherOrder, hs)
    requires AllReset(hs)
    requires SizedDigests(w.digest)
    ensures forall e :: e in SumExec(g, p, w, hs).effects ==>
              exists j, i :: 0 <= j < |g.targets| && 0 <= i < |g.hasherOrder|
                && var t := g.targets[j];
                   var algo := hs[g.hasherOrder[i]].algo;
                   && Readable(w, ArtifactPath(p, t))
                   && e.path == BuildCommand(g, env, p, t).args[2] + "." + g.hasherOrder[i]
                   && e.hex == HexEncode(w.digest(algo, w.readFile(ArtifactPath(p, t)).value))
                   && |e.hex| == 2 * DigestSize(algo)
                   && forall k :: 0 <= k < |e.hex| ==> IsHexDigit(e.hex[k])
  {
  }

  /** Within one project, distinct targets never share an artifact file, as
      long as system names contain no `-` (no Go port name does): the name
      determines the target. */
  lemma ArtifactNameInjective(appName: string, t1: Target, t2: Target)
    requires '-' !in t1.goos && '-' !in t2.goos
    requires t1.execSuffix == ExecSuffix(t1.goos) && t2.execSuffix == ExecSuffix(t2.goos)
    ensures ArtifactName(appName, t1) == ArtifactName(appName, t2) ==> t1 == t2
  {
    if ArtifactName(appName, t1) == ArtifactName(appName, t2) {
      var u1 := t1.goarch + t1.execSuffix;
      var u2 := t2.goarch + t2.execSuffix;
      assert t1.goos + "-" + u1 == t2.goos + "-" + u2 by {
        ArtifactNameTail(appName, t1);
        ArtifactNameTail(appName, t2);
      }
      SplitAtFirstDash(t1.goos, u1, t2.goos, u2);
      assert t1.goarch == u1[..|t1.goarch|] && t2.goarch == u2[..|t2.goarch|];
    }
  }

  /** What follows the application name and its dash in an artifact name. */
  lemma ArtifactNameTail(appName: string, t: Target)
    ensures ArtifactName(appName, t)[|appName| + 1..] == t.goos + "-" + (t.goarch + t.execSuffix)
  {
    var tail := t.goos + "-" + (t.goarch + t.execSuffix);
    assert ArtifactName(appName, t) == appName + "-" + tail;
  }

  lemma FirstDash(a: string, b: string)
    requires '-' !in a
    ensures (a + "-" + b)[|a|] == '-'
    ensures forall k :: 0 <= k < |a| ==> (a + "-" + b)[k] != '-'
  {
    forall k | 0 <= k < |a| ensures (a + "-" + b)[k] != '-' {
      assert (a + "-" + b)[k] == a[k];
    }
  }

  /** A `-`-free prefix ends at the first `-`. */
  lemma SplitAtFirstDash(a1: string, b1: string, a2: string, b2: string)
    requires '-' !in a1 && '-' !in a2
    requires a1 + "-" + b1 == a2 + "-" + b2
    ensures a1 == a2 && b1 == b2
  {
    FirstDash(a1, b1);
    FirstDash(a2, b2);
    var s := a1 + "-" + b1;
    assert |a1| == |a2|;
    assert a1 == s[..|a1|] == a2;
    assert b1 == s[|a1| + 1..] == b2;
  }

  // ---------------------------------------------------------------------------
  // Environment

  /** An entry for `key` appended last decides the lookup. */
  lemma EnvLookupSet(env: seq<string>, key: string, value: string)
    ensures EnvLookup(env + [key + "=" + value], key) == Some(value)
  {
    var entry := key + "=" + value;
    assert entry[|key| + 1..] == value;
  }

  /** An appended entry that differs from `key=` at position `k` leaves the
      lookup of `key` as it was. */
  lemma EnvLookupSkip(env: seq<string>, entry: string, key: string, k: nat)
    requires k <= |key| && k < |entry| && (key + "=")[k] != entry[k]
    ensures EnvLookup(env + [entry], key) == EnvLookup(env, key)
  {
    assert (env + [entry])[..|env|] == env;
  }

  /** `Build`'s environment names the toolchain: GOROOT is `<toolchain>/go`,
      GOPATH is `<toolchain>/gopath`, and PATH starts with `<toolchain>/go/bin`
      followed by the inherited PATH. */
  lemma BuildEnvLookup(g: GoBuilder, pathEnv: string, listSep: char)
    ensures var env := BuildEnv(g, pathEnv, listSep);
            && EnvLookup(env, "GOROOT") == Some(Render(g.goRootPath))
            && EnvLookup(env, "GOPATH") == Some(Render(g.goPathPath))
            && EnvLookup(env, "PATH") == Some(Render(g.goRootPath + ["bin"]) + [listSep] + pathEnv)
            && env[..|g.defaultEnv|] == g.defaultEnv
  {
    var pathValue := Render(g.goRootPath + ["bin"]) + [listSep] + pathEnv;
    assert "PATH=" + Render(Join(g.goRootPath, "bin")) + [listSep] + pathEnv == "PATH=" + pathValue;
    assert BuildEnv(g, pathEnv, listSep)
        == g.defaultEnv + ["GOPATH=" + Render(g.goPathPath), "GOROOT=" + Render(g.goRootPath), "PATH=" + pathValue];
    ToolchainEntries(g.defaultEnv, Render(g.goPathPath), Render(g.goRootPath), pathValue);
  }

  /** Appending GOPATH, GOROOT and PATH entries, in that order, sets those three keys. */
  lemma ToolchainEntries(base: seq<string>, gopath: string, goroot: string, pathValue: string)
    ensures var env := base + ["GOPATH=" + gopath, "GOROOT=" + goroot, "PATH=" + pathValue];
            && EnvLookup(env, "GOROOT") == Some(goroot)
            && EnvLookup(env, "GOPATH") == Some(gopath)
            && EnvLookup(env, "PATH") == Some(pathValue)
            && env[..|base|] == base
  {
    var gp := "GOPATH" + "=" + gopath;
    var gr := "GOROOT" + "=" + goroot;
    var path := "PATH" + "=" + pathValue;
    assert "GOPATH" + "=" == "GOPATH=" && "GOROOT" + "=" == "GOROOT=" && "PATH" + "=" == "PATH=";
    var e1 := base + [gp];
    var e2 := e1 + [gr];
    assert base + ["GOPATH=" + gopath, "GOROOT=" + goroot, "PATH=" + pathValue] == e2 + [path];
    assert EnvLookup(e2 + [path], "PATH") == Some(pathValue) by {
      EnvLookupSet(e2, "PATH", pathValue);
    }
    assert EnvLookup(e2 + [path], "GOROOT") == Some(goroot) by {
      EnvLookupSkip(e2, path, "GOROOT", 0);
      EnvLookupSet(e1, "GOROOT", goroot);
    }
    assert EnvLookup(e2 + [path], "GOPATH") == Some(gopath) by {
      EnvLookupSkip(e2, path, "GOPATH", 0);
      EnvLookupSkip(e1, gr, "GOPATH", 2);
      EnvLookupSet(base, "GOPATH", gopath);
    }
    assert (e2 + [path])[..|base|] == base;
  }

  /** A target's environment sets GOOS and GOARCH to the target's. */
  lemma TargetEnvSets(env: seq<string>, t: Target)
    ensures EnvLookup(TargetEnv(env, t), "GOOS") == Some(t.goos)
    ensures EnvLookup(TargetEnv(env, t), "GOARCH") == Some(t.goarch)
    ensures TargetEnv(env, t)[..|env|] == env
  {
    var goos := "GOOS" + "=" + t.goos;
    var goarch := "GOARCH" + "=" + t.goarch;
    assert "GOOS" + "=" == "GOOS=" && "GOARCH" + "=" == "GOARCH=";
    var e4 := env + [goos];
    assert TargetEnv(env, t) == e4 + [goarch];
    EnvLookupSet(e4, "GOARCH", t.goarch);
    EnvLookupSkip(e4, goarch, "GOOS", 2);
    EnvLookupSet(env, "GOOS", t.goos);
    assert (e4 + [goarch])[..|env|] == env;
  }

  /** A target's environment leaves GOROOT, GOPATH and PATH as they were. */
  lemma TargetEnvKeeps(env: seq<string>, t: Target)
    ensures EnvLookup(TargetEnv(env, t), "GOROOT") == EnvLookup(env, "GOROOT")
    ensures EnvLookup(TargetEnv(env, t), "GOPATH") == EnvLookup(env, "GOPATH")
    ensures EnvLookup(TargetEnv(env, t), "PATH") == EnvLookup(env, "PATH")
  {
    var goos := "GOOS" + "=" + t.goos;
    var goarch := "GOARCH" + "=" + t.goarch;
    assert "GOOS" + "=" == "GOOS=" && "GOARCH" + "=" == "GOARCH=";
    var e4 := env + [goos];
    assert TargetEnv(env, t) == e4 + [goarch];
    EnvLookupSkip(e4, goarch, "GOROOT", 2);
    EnvLookupSkip(env, goos, "GOROOT", 2);
    EnvLookupSkip(e4, goarch, "GOPATH", 2);
    EnvLookupSkip(env, goos, "GOPATH", 2);
    EnvLookupSkip(e4, goarch, "PATH", 0);
    EnvLookupSkip(env, goos, "PATH", 0);
  }

  /** The environment a cross-compilation of target `t` sees, for a builder
      made by `NewGoBuilder` on toolchain directory `toolchainPath`. */
  lemma TargetEnvironment(toolchainPath: Path, conf: SelectedConfig, osOrder: seq<string>, hasherOrder: seq<string>,
                          environ: seq<string>, envFile: seq<string>, pathEnv: string, listSep: char, t: Target)
    requires Enumerates(osOrder, conf.profile.os)
    requires Enumerates(hasherOrder, HasherAlgos)
    ensures var g := NewGoBuilder(toolchainPath, conf, osOrder, hasherOrder, environ, envFile);
            var env := TargetEnv(BuildEnv(g, pathEnv, listSep), t);
            && EnvLookup(env, "GOOS") == Some(t.goos)
            && EnvLookup(env, "GOARCH") == Some(t.goarch)
            && EnvLookup(env, "GOROOT") == Some(Render(toolchainPath + ["go"]))
            && EnvLookup(env, "GOPATH") == Some(Render(toolchainPath + ["gopath"]))
            && EnvLookup(env, "PATH") == Some(Render(toolchainPath + ["go", "bin"]) + [listSep] + pathEnv)
            && env[..|environ| + |envFile|] == environ + envFile
  {
    var g := NewGoBuilder(toolchainPath, conf, osOrder, hasherOrder, environ, envFile);
    assert g.goRootPath == toolchainPath + ["go"] && g.goPathPath == toolchainPath + ["gopath"];
    assert g.defaultEnv == environ + envFile;
    assert g.goRootPath + ["bin"] == toolchainPath + ["go", "bin"];
    CompileEnvironment(g, pathEnv, listSep, t);
  }

  /** The environment of every compilation: the target's GOOS and GOARCH and
      the builder's GOROOT, GOPATH and PATH, after its base environment. */
  lemma CompileEnvironment(g: GoBuilder, pathEnv: string, listSep: char, t: Target)
    ensures var env := TargetEnv(BuildEnv(g, pathEnv, listSep), t);
            && EnvLookup(env, "GOOS") == Some(t.goos)
            && EnvLookup(env, "GOARCH") == Some(t.goarch)
            && EnvLookup(env, "GOROOT") == Some(Render(g.goRootPath))
            && EnvLookup(env, "GOPATH") == Some(Render(g.goPathPath))
            && EnvLookup(env, "PATH") == Some(Render(g.goRootPath + ["bin"]) + [listSep] + pathEnv)
            && env[..|g.defaultEnv|] == g.defaultEnv
  {
    var env := BuildEnv(g, pathEnv, listSep);
    var tenv := TargetEnv(env, t);
    assert EnvLookup(tenv, "GOOS") == Some(t.goos) && EnvLookup(tenv, "GOARCH") == Some(t.goarch) by {
      TargetEnvSets(env, t);
    }
    assert && EnvLookup(tenv, "GOROOT") == Some(Render(g.goRootPath))
           && EnvLookup(tenv, "GOPATH") == Some(Render(g.goPathPath))
           && EnvLookup(tenv, "PATH") == Some(Render(g.goRootPath + ["bin"]) + [listSep] + pathEnv) by {
      BuildEnvLookup(g, pathEnv, listSep);
      TargetEnvKeeps(env, t);
    }
    assert tenv[..|g.defaultEnv|] == g.defaultEnv by {
      BuildEnvLookup(g, pathEnv, listSep);
      TargetEnvSets(env, t);
      assert tenv[..|g.defaultEnv|] == env[..|g.defaultEnv|];
    }
  }
}

=== FILE: hashing.dfy ===
/** Digest state and hex encoding used by the hash stage. The digest
    algorithms themselves (SHA-1, SHA-256, SHA-512) are given as a function. */
module Hashing {
  import opened Wrappers

  newtype byte = b: int | 0 <= b < 256

  /** The algorithms the builder keys by `sha1`, `sha256` and `sha512`. */
  datatype Algo = SHA1 | SHA256 | SHA512

  /** Output length in bytes of each algorithm. */
  function DigestSize(a: Algo): nat
  {
    match a
    case SHA1 => 20
    case SHA256 => 32
    case SHA512 => 64
  }

  /** The digest of a whole message under each algorithm. */
  type DigestFn = (Algo, seq<byte>) -> seq<byte>

  /** Every digest has its algorithm's output length. */
  ghost predicate SizedDigests(digest: DigestFn)
  {
    forall a, m :: |digest(a, m)| == DigestSize(a)
  }

  /** A stateful `hash.Hash`: its algorithm and the bytes written since the last reset. */
  datatype Hasher = Hasher(algo: Algo, written: seq<byte>)

  /** A freshly constructed or freshly reset hasher. */
  predicate IsReset(h: Hasher)
  {
    h.written == []
  }

  /** `hash.Hash.Write`: appends to the state. */
  function Write(h: Hasher, data: seq<byte>): (r: Hasher)
    ensures r.algo == h.algo && r.written == h.written + data
  {
    Hasher(h.algo, h.written + data)
  }

  /** `hash.Hash.Sum(nil)`: the digest of everything written so far. */
  function Sum(h: Hasher, digest: DigestFn): seq<byte>
  {
    digest(h.algo, h.written)
  }

  /** `hash.Hash.Reset`: forgets everything written. */
  function Reset(h: Hasher): (r: Hasher)
    ensures IsReset(r) && r.algo == h.algo
  {
    Hasher(h.algo, [])
  }

  /** Writing to a reset hasher and summing gives the digest of exactly the
      bytes written, and resetting afterwards restores the hasher. */
  lemma WriteSumReset(h: Hasher, data: seq<byte>, digest: DigestFn)
    requires IsReset(h)
    ensures Sum(Write(h, data), digest) == digest(h.algo, data)
    ensures Reset(Write(h, data)) == h
  {
    assert [] + data == data;
  }

  /** A lower-case hexadecimal digit. */
  predicate IsHexDigit(c: char)
  {
    '0' <= c <= '9' || 'a' <= c <= 'f'
  }

  /** The lower-case hex digit of a nibble. */
  function HexDigit(n: byte): (c: char)
    requires n < 16
    ensures IsHexDigit(c)
  {
    if n < 10 then '0' + (n as int as char) else 'a' + ((n - 10) as int as char)
  }

  /** Two lower-case hex digits of one byte, high nibble first. */
  function HexByte(b: byte): (r: string)
    ensures |r| == 2 && IsHexDigit(r[0]) && IsHexDigit(r[1])
  {
    [HexDigit(b / 16), HexDigit(b % 16)]
  }

  /** `hex.EncodeToString`. */
  function HexEncode(bs: seq<byte>): (r: string)
    ensures |r| == 2 * |bs|
    ensures forall i :: 0 <= i < |r| ==> IsHexDigit(r[i])
  {
    if bs == [] then "" else HexByte(bs[0]) + HexEncode(bs[1..])
  }

  /** The value of one lower-case hex digit. */
  function HexValue(c: char): Option<byte>
  {
    if '0' <= c <= '9' then Some((c - '0') as byte)
    else if 'a' <= c <= 'f' then Some((c - 'a') as byte + 10)
    else None
  }

  /** The inverse of `HexEncode`: `None` on odd length or a non-digit. */
  function HexDecode(s: string): (r: Option<seq<byte>>)
    ensures r.Some? ==> |s| == 2 * |r.value|
    decreases |s|
  {
    if s == [] then Some([])
    else if |s| == 1 then None
    else
      match (HexValue(s[0]), HexValue(s[1]), HexDecode(s[2..]))
      case (Some(hi), Some(lo), Some(rest)) => Some([hi * 16 + lo] + rest)
      case _ => None
  }

  lemma HexDigitRoundTrip(n: byte)
    requires n < 16
    ensures HexValue(HexDigit(n)) == Some(n)
  {
  }

  /** Hex decoding recovers exactly the encoded bytes, so distinct digests
      give distinct sidecar contents. */
  lemma {:induction false} HexRoundTrip(bs: seq<byte>)
    ensures HexDecode(HexEncode(bs)) == Some(bs)
  {
    if bs != [] {
      var s := HexEncode(bs);
      HexDigitRoundTrip(bs[0] / 16);
      HexDigitRoundTrip(bs[0] % 16);
      assert s[2..] == HexEncode(bs[1..]);
      HexRoundTrip(bs[1..]);
      assert [bs[0]] + bs[1..] == bs;
    }
  }
}

=== FILE: installer.dfy ===
/** Installing the Go toolchain into the project: the skip when it is already
    present, the archive name and download URL of the latest stable release,
    and its extraction, with the `zip` entries checked against escaping the
    destination and the `tar.gz` entries dispatched on their type flag.
    Downloading, archive decoding and the file system are given as oracles;
    what extraction does is recorded as a sequence of operations. */
module Installer {
  import opened Wrappers
  import opened Paths
  import Text
  import opened Hashing
  import opened Version
  import Models

  /** `filepath.Join`, `filepath.Clean` and `filepath.Dir` on strings, and
      `os.PathSeparator`; their semantics are not modelled. */
  datatype PathOps = PathOps(join: (string, string) -> string, clean: string -> string, dir: string -> string, sep: char)

  /** One file system or network operation of the installer. */
  datatype Op =
    | MkdirAll(path: string)
    | Create(path: string)                // os.OpenFile with O_CREATE|O_TRUNC
    | Copy(path: string, data: seq<byte>) // io.Copy of an entry's bytes into the created file
    | Download(url: string, path: string)
    | Remove(path: string)

  /** The operations one extraction performed and its error, if any. */
  datatype ExtractRun = ExtractRun(ops: seq<Op>, err: Option<string>)

  /** A `zip` entry: its name, whether it is a directory, and its bytes or the
      error `f.Open` gives. */
  datatype ZipEntry = ZipEntry(name: string, isDir: bool, contents: Result<seq<byte>, string>)

  /** What `tar.Reader.Next` yields: a header with the entry's bytes, or a read
      error. The end of the sequence is `io.EOF`. */
  datatype TarItem = TarHeader(name: string, typeflag: nat, data: seq<byte>) | TarError(err: string)

  /** What `os.Stat` reports. */
  datatype StatResult = Found | NotExist | StatFailed

  /** The outside world seen by the installer. `fail` gives the error of an
      operation, if it fails; `openZip` and `openTarGz` decode an archive
      file into its entries, or fail to open it. */
  datatype InstallWorld = InstallWorld(
    stat: Path -> StatResult,
    fail: Op -> Option<string>,
    openZip: string -> Result<seq<ZipEntry>, string>,
    openTarGz: string -> Result<seq<TarItem>, string>)

  /** The platform the installer runs on. */
  datatype Host = Host(goos: string, goarch: string, tempDir: string)

  /** The installer's state. */
  datatype GoInstaller = GoInstaller(projectPath: Path, toolchainDir: Path)

  /** How `EnsureGo` ended: the operations it performed and its error. */
  datatype InstallRun = InstallRun(ops: seq<Op>, result: Outcome<GoError>)

  const TypeReg: nat := 48  // '0'
  const TypeDir: nat := 53  // '5'
  const DownloadBase: string := "https://golang.org/dl/"

  /** `New`: the toolchain is kept in `.toolchain` directly under the project. */
  function New(projectPath: Path): (g: GoInstaller)
    ensures g.projectPath == projectPath
    ensures Dir(g.toolchainDir) == projectPath && Base(g.toolchainDir) == ".toolchain"
  {
    GoInstaller(projectPath, Join(projectPath, ".toolchain"))
  }

  /** The program hands the installer the project directory itself, while the
      default configuration places the toolchain beside the directory of the
      path it is given: the two locations agree only for the root. */
  lemma InstallDirVsDefaultLocation(path: Path)
    ensures New(path).toolchainDir == Models.DefaultConfig(path).toolchain.location <==> path == []
  {
    if path != [] {
      assert |New(path).toolchainDir| != |Models.DefaultConfig(path).toolchain.location|;
    }
  }

  /** `isGoInstalled`: anything but "does not exist" for `<toolchain>/go`
      counts as installed, a failing `Stat` included. */
  predicate IsGoInstalled(g: GoInstaller, w: InstallWorld)
  {
    w.stat(Join(g.toolchainDir, "go")) != NotExist
  }

  // ---------------------------------------------------------------------------
  // Naming

  /** The archive format of the release for an operating system. */
  function ArchiveExt(goos: string): string
  {
    if goos == "windows" then "zip" else "tar.gz"
  }

  /** `go<version>.<goos>-<goarch>.<ext>`. */
  function ArchiveName(version: string, goos: string, goarch: string): string
  {
    "go" + version + "." + goos + "-" + goarch + "." + ArchiveExt(goos)
  }

  function DownloadUrl(name: string): string
  {
    DownloadBase + name
  }

  /** The archive name spells out the version, the platform and the format,
      in that order, and the format is `zip` exactly for windows. */
  lemma ArchiveNameParts(version: string, goos: string, goarch: string)
    ensures var name := ArchiveName(version, goos, goarch);
            var platform := goos + "-" + goarch;
            && name[..2 + |version|] == "go" + version
            && name[2 + |version|] == '.'
            && name[3 + |version|..3 + |version| + |platform|] == platform
            && (goos == "windows" ==> name[|name| - 4..] == ".zip")
            && (goos != "windows" ==> name[|name| - 7..] == ".tar.gz")
  {
    var name := ArchiveName(version, goos, goarch);
    var platform := goos + "-" + goarch;
    var ext := "." + ArchiveExt(goos);
    assert name == "go" + version + "." + platform + ext;
    DotParts("go" + version, platform, ext);
    if goos == "windows" {
      assert ext == ".zip";
    } else {
      assert ext == ".tar.gz";
    }
  }

  /** The parts of `a.bc`, read back by indexing and slicing. */
  lemma DotParts(a: string, b: string, c: string)
    ensures var s := a + "." + b + c;
            && s[..|a|] == a
            && s[|a|] == '.'
            && s[|a| + 1..|a| + 1 + |b|] == b
            && s[|s| - |c|..] == c
  {
    var s := a + "." + b + c;
    assert s[|a| + 1..|a| + 1 + |b|] == b by {
      assert forall k :: 0 <= k < |b| ==> s[|a| + 1 + k] == b[k];
    }
  }

  /** The download URL is the archive name under the release directory, so
      the last component of the URL names the file it is saved as. */
  lemma DownloadUrlParts(name: string)
    ensures Text.HasPrefix(DownloadUrl(name), DownloadBase)
    ensures DownloadUrl(name)[|DownloadBase|..] == name
  {
  }

  /** The two extractors. */
  datatype Extractor = Unzip | UntarGz

  /** `downloadAndInstallGo`'s choice of extractor. */
  function ExtractorFor(goos: string): Extractor
  {
    if goos == "windows" then Unzip else UntarGz
  }

  /** The extractor always matches the format named in the archive's name. */
  lemma ExtractorMatchesFormat(goos: string)
    ensures ExtractorFor(goos) == Unzip <==> ArchiveExt(goos) == "zip"
    ensures ExtractorFor(goos) == UntarGz <==> ArchiveExt(goos) == "tar.gz"
  {
  }

  // ---------------------------------------------------------------------------
  // Extraction, entry by entry

  /** The operations of every step, in order. */
  function ConcatOps(steps: seq<ExtractRun>): (ops: seq<Op>)
    ensures forall op :: op in ops <==> exists i :: 0 <= i < |steps| && op in steps[i].ops
  {
    if steps == [] then []
    else
      var rest := ConcatOps(steps[1..]);
      assert forall i :: 1 <= i < |steps| ==> steps[i] == steps[1..][i - 1];
      steps[0].ops + rest
  }

  /** Entries processed in order until the first one that fails. */
  function RunSteps(steps: seq<ExtractRun>): (r: ExtractRun)
    ensures r.err.None? <==> forall i :: 0 <= i < |steps| ==> steps[i].err.None?
    ensures r.err.None? ==> r.ops == ConcatOps(steps)
    ensures forall op :: op in r.ops ==> exists i :: 0 <= i < |steps| && op in steps[i].ops
  {
    if steps == [] then ExtractRun([], None)
    else if steps[0].err.Some? then steps[0]
    else
      var rest := RunSteps(steps[1..]);
      assert forall i :: 1 <= i < |steps| ==> steps[i] == steps[1..][i - 1];
      ExtractRun(steps[0].ops + rest.ops, rest.err)
  }

  /** The first failing entry ends the extraction with its error; the entries
      before it have done all their operations and the ones after it none. */
  lemma {:induction false} RunStepsStopsAt(steps: seq<ExtractRun>, k: nat)
    requires k < |steps| && steps[k].err.Some?
    requires forall j :: 0 <= j < k ==> steps[j].err.None?
    ensures RunSteps(steps) == ExtractRun(ConcatOps(steps[..k]) + steps[k].ops, steps[k].err)
  {
    if k == 0 {
      assert steps[..0] == [];
    } else {
      RunStepsStopsAt(steps[1..], k - 1);
      assert steps[1..][..k - 1] == steps[..k][1..];
      assert ConcatOps(steps[..k]) == steps[0].ops + ConcatOps(steps[..k][1..]);
    }
  }

  /** Several operations one after another, stopping at the first that fails. */
  function Perform(ops: seq<Op>, w: InstallWorld): (r: ExtractRun)
    ensures r.ops <= ops
    ensures |ops| > 0 ==> |r.ops| > 0
    ensures r.err.None? <==> forall i :: 0 <= i < |ops| ==> w.fail(ops[i]).None?
    ensures r.err.None? ==> r.ops == ops
    ensures r.err.Some? ==> r.err == w.fail(r.ops[|r.ops| - 1])
    ensures r.err.Some? ==> forall i :: 0 <= i < |r.ops| - 1 ==> w.fail(r.ops[i]).None?
  {
    if ops == [] then ExtractRun([], None)
    else
      match w.fail(ops[0])
      case Some(e) => ExtractRun([ops[0]], Some(e))
      case None =>
        var rest := Perform(ops[1..], w);
        assert forall i :: 1 <= i < |ops| ==> ops[i] == ops[1..][i - 1];
        ExtractRun([ops[0]] + rest.ops, rest.err)
  }

  /** Creating a file and then filling it is the two creating operations
      followed by the copy, which runs only when both succeeded. */
  lemma PerformThenCopy(x: Op, y: Op, z: Op, w: InstallWorld)
    ensures var created := Perform([x, y], w);
            Perform([x, y, z], w)
              == if created.err.Some? then created else ExtractRun(created.ops + Perform([z], w).ops, Perform([z], w).err)
  {
    var last := Perform([z], w);
    var yz := Perform([y, z], w);
    var justY := Perform([y], w);
    assert yz == if w.fail(y).Some? then ExtractRun([y], w.fail(y)) else ExtractRun([y] + last.ops, last.err) by {
      assert [y, z] == [y] + [z];
      PerformCons(y, [z], w);
    }
    assert justY == if w.fail(y).Some? then ExtractRun([y], w.fail(y)) else ExtractRun([y], None) by {
      assert [y] == [y] + [];
      PerformCons(y, [], w);
    }
    assert Perform([x, y, z], w) == if w.fail(x).Some? then ExtractRun([x], w.fail(x)) else ExtractRun([x] + yz.ops, yz.err) by {
      assert [x, y, z] == [x] + [y, z];
      PerformCons(x, [y, z], w);
    }
    assert Perform([x, y], w) == if w.fail(x).Some? then ExtractRun([x], w.fail(x)) else ExtractRun([x] + justY.ops, justY.err) by {
      assert [x, y] == [x] + [y];
      PerformCons(x, [y], w);
    }
    if w.fail(x).None? && w.fail(y).None? {
      assert [x] + ([y] + last.ops) == [x, y] + last.ops;
    }
  }

  /** The first operation runs; the rest only when it succeeded. */
  lemma PerformCons(op: Op, rest: seq<Op>, w: InstallWorld)
    ensures Perform([op] + rest, w)
         == if w.fail(op).Some? then ExtractRun([op], w.fail(op))
            else ExtractRun([op] + Perform(rest, w).ops, Perform(rest, w).err)
  {
    assert ([op] + rest)[0] == op && ([op] + rest)[1..] == rest;
  }

  /** The prefix every extracted path must have: the cleaned destination and
      a separator. */
  function SafePrefix(ops: PathOps, dest: string): string
  {
    ops.clean(dest) + [ops.sep]
  }

  function IllegalPath(fpath: string): string
  {
    "illegal file path: " + fpath
  }

  /** One `zip` entry: the ZipSlip check on the joined path, then either the
      directory (whose creation error is ignored) or the file. */
  function UnzipEntry(ops: PathOps, dest: string, e: ZipEntry, w: InstallWorld): (r: ExtractRun)
    ensures !Text.HasPrefix(ops.join(dest, e.name), SafePrefix(ops, dest)) ==>
              r == ExtractRun([], Some(IllegalPath(ops.join(dest, e.name))))
    ensures forall op :: op in r.ops ==>
              && (op.Create? || op.Copy? ==> op.path == ops.join(dest, e.name))
              && (op.MkdirAll? ==> op.path == ops.join(dest, e.name) || op.path == ops.dir(ops.join(dest, e.name)))
              && !op.Download? && !op.Remove?
    ensures Text.HasPrefix(ops.join(dest, e.name), SafePrefix(ops, dest)) && e.isDir ==>
              r == ExtractRun([MkdirAll(ops.join(dest, e.name))], None)
    ensures var fpath := ops.join(dest, e.name);
            Text.HasPrefix(fpath, SafePrefix(ops, dest)) && !e.isDir ==>
              r == WriteEntryFile(fpath, ops.dir(fpath), e.contents, w)
    ensures !e.isDir && r.err.None? ==> e.contents.Success? && Copy(ops.join(dest, e.name), e.contents.value) in r.ops
  {
    var fpath := ops.join(dest, e.name);
    if !Text.HasPrefix(fpath, SafePrefix(ops, dest)) then ExtractRun([], Some(IllegalPath(fpath)))
    else if e.isDir then ExtractRun([MkdirAll(fpath)], None)
    else WriteEntryFile(fpath, ops.dir(fpath), e.contents, w)
  }

  /** A file entry of `unzip` that passed the check: its parent directory is
      created, then the file, then the entry's bytes are copied in; an entry
      whose bytes cannot be opened fails once the file exists. */
  function WriteEntryFile(fpath: string, parent: string, contents: Result<seq<byte>, string>, w: InstallWorld): (r: ExtractRun)
    ensures contents.Success? ==> r == Perform([MkdirAll(parent), Create(fpath), Copy(fpath, contents.value)], w)
    ensures var created := Perform([MkdirAll(parent), Create(fpath)], w);
            contents.Failure? ==>
              && r.ops == created.ops
              && r.err == (if created.err.Some? then created.err else Some(contents.error))
    ensures r.err.None? ==> contents.Success? && Copy(fpath, contents.value) in r.ops
    ensures forall op :: op in r.ops ==> op == MkdirAll(parent) || op == Create(fpath) || (op.Copy? && op.path == fpath)
  {
    match contents
    case Success(data) =>
      var all := [MkdirAll(parent), Create(fpath), Copy(fpath, data)];
      var r := Perform(all, w);
      assert forall op :: op in r.ops ==> op in all by {
        PrefixMembers(r.ops, all);
      }
      assert r.err.None? ==> r.ops == all && all[2] in r.ops;
      r
    case Failure(err) =>
      var created := Perform([MkdirAll(parent), Create(fpath)], w);
      assert forall op :: op in created.ops ==> op == MkdirAll(parent) || op == Create(fpath) by {
        PrefixMembers(created.ops, [MkdirAll(parent), Create(fpath)]);
      }
      if created.err.Some? then created else ExtractRun(created.ops, Some(err))
  }

  /** What a prefix holds, the whole list holds. */
  lemma PrefixMembers(a: seq<Op>, b: seq<Op>)
    requires a <= b
    ensures forall x :: x in a ==> x in b
  {
    forall x | x in a ensures x in b {
      var i :| 0 <= i < |a| && a[i] == x;
      assert b[i] == x;
    }
  }

  /** Each zip entry extracted on its own. */
  function UnzipSteps(ops: PathOps, dest: string, es: seq<ZipEntry>, w: InstallWorld): (steps: seq<ExtractRun>)
    ensures |steps| == |es|
    ensures forall i :: 0 <= i < |es| ==> steps[i] == UnzipEntry(ops, dest, es[i], w)
  {
    seq(|es|, i requires 0 <= i < |es| => UnzipEntry(ops, dest, es[i], w))
  }

  /** `unzip` once the archive is open: it succeeds exactly when every entry
      does, and then has done every entry's operations in archive order. */
  function UnzipEntries(ops: PathOps, dest: string, es: seq<ZipEntry>, w: InstallWorld): (r: ExtractRun)
    ensures r.err.None? <==> forall i :: 0 <= i < |es| ==> UnzipEntry(ops, dest, es[i], w).err.None?
    ensures r.err.None? ==> r.ops == ConcatOps(UnzipSteps(ops, dest, es, w))
    ensures forall op :: op in r.ops ==> !op.Download? && !op.Remove?
  {
    RunSteps(UnzipSteps(ops, dest, es, w))
  }

  /** The first entry that fails, whatever the failure (the path check, a
      directory or file creation, opening the entry, the copy), ends `unzip`
      with its error: the entries before it have done all their operations,
      the failing one those up to its failure, and the later ones nothing. */
  lemma UnzipStopsAt(ops: PathOps, dest: string, es: seq<ZipEntry>, w: InstallWorld, k: nat)
    requires k < |es| && UnzipEntry(ops, dest, es[k], w).err.Some?
    requires forall j :: 0 <= j < k ==> UnzipEntry(ops, dest, es[j], w).err.None?
    ensures var failed := UnzipEntry(ops, dest, es[k], w);
            UnzipEntries(ops, dest, es, w)
              == ExtractRun(ConcatOps(UnzipSteps(ops, dest, es, w)[..k]) + failed.ops, failed.err)
  {
    RunStepsStopsAt(UnzipSteps(ops, dest, es, w), k);
  }

  /** No file is created or written outside the destination: every created or
      copied path passed the prefix check, whatever the entry names are. */
  lemma UnzipStaysInside(ops: PathOps, dest: string, es: seq<ZipEntry>, w: InstallWorld)
    ensures forall op :: op in UnzipEntries(ops, dest, es, w).ops && (op.Create? || op.Copy?) ==>
              Text.HasPrefix(op.path, SafePrefix(ops, dest))
  {
    var steps := UnzipSteps(ops, dest, es, w);
    forall op | op in UnzipEntries(ops, dest, es, w).ops && (op.Create? || op.Copy?)
      ensures Text.HasPrefix(op.path, SafePrefix(ops, dest))
    {
      var i :| 0 <= i < |steps| && op in steps[i].ops;
      assert steps[i] == UnzipEntry(ops, dest, es[i], w);
    }
  }

  /** The first entry that fails the check ends `unzip` with "illegal file
      path"; the entries before it, when they all succeeded, have already
      been extracted. */
  lemma UnzipStopsAtIllegal(ops: PathOps, dest: string, es: seq<ZipEntry>, w: InstallWorld, k: nat)
    requires k < |es| && !Text.HasPrefix(ops.join(dest, es[k].name), SafePrefix(ops, dest))
    requires forall j :: 0 <= j < k ==> UnzipEntry(ops, dest, es[j], w).err.None?
    ensures UnzipEntries(ops, dest, es, w)
              == ExtractRun(ConcatOps(UnzipSteps(ops, dest, es, w)[..k]), Some(IllegalPath(ops.join(dest, es[k].name))))
  {
    var steps := UnzipSteps(ops, dest, es, w);
    RunStepsStopsAt(steps, k);
    assert steps[k].ops == [];
    assert ConcatOps(steps[..k]) + [] == ConcatOps(steps[..k]);
  }

  /** `unzip`: opening the archive, then its entries. */
  function UnzipArchive(ops: PathOps, src: string, dest: string, w: InstallWorld): (r: ExtractRun)
    ensures w.openZip(src).Failure? ==> r == ExtractRun([], Some(w.openZip(src).error))
    ensures w.openZip(src).Success? ==> r == UnzipEntries(ops, dest, w.openZip(src).value, w)
  {
    match w.openZip(src)
    case Failure(err) => ExtractRun([], Some(err))
    case Success(es) => UnzipEntries(ops, dest, es, w)
  }

  function UnknownType(flag: nat): string
  {
    "unknown file type: " + Text.Decimal(flag) + " in tar.gz"
  }

  /** One item of `tar.Reader.Next`: a read error aborts; a directory header
      creates the directory, a regular one writes the file, and any other
      type flag aborts. The entry name is joined to the destination without
      any check. */
  function UntarItem(ops: PathOps, dest: string, item: TarItem, w: InstallWorld): (r: ExtractRun)
    ensures item.TarError? ==> r == ExtractRun([], Some(item.err))
    ensures item.TarHeader? && item.typeflag != TypeDir && item.typeflag != TypeReg ==>
              r == ExtractRun([], Some(UnknownType(item.typeflag)))
    ensures item.TarHeader? && item.typeflag == TypeDir ==>
              r == Perform([MkdirAll(ops.join(dest, item.name))], w)
    ensures item.TarHeader? && item.typeflag == TypeReg ==>
              var target := ops.join(dest, item.name);
              && r == Perform([MkdirAll(ops.dir(target)), Create(target), Copy(target, item.data)], w)
              && (r.err.None? <==> forall op :: op in [MkdirAll(ops.dir(target)), Create(target), Copy(target, item.data)] ==> w.fail(op).None?)
              && (r.err.None? ==> Copy(target, item.data) in r.ops)
    ensures forall op :: op in r.ops ==> !op.Download? && !op.Remove?
  {
    match item
    case TarError(err) => ExtractRun([], Some(err))
    case TarHeader(name, flag, data) =>
      var target := ops.join(dest, name);
      if flag == TypeDir then Perform([MkdirAll(target)], w)
      else if flag == TypeReg then Perform([MkdirAll(ops.dir(target)), Create(target), Copy(target, data)], w)
      else ExtractRun([], Some(UnknownType(flag)))
  }

  /** Each tar item extracted on its own. */
  function UntarSteps(ops: PathOps, dest: string, items: seq<TarItem>, w: InstallWorld): (steps: seq<ExtractRun>)
    ensures |steps| == |items|
    ensures forall i :: 0 <= i < |items| ==> steps[i] == UntarItem(ops, dest, items[i], w)
  {
    seq(|items|, i requires 0 <= i < |items| => UntarItem(ops, dest, items[i], w))
  }

  /** `untarGz` once the archive is open: items until the end of the archive. */
  function UntarItems(ops: PathOps, dest: string, items: seq<TarItem>, w: InstallWorld): (r: ExtractRun)
    ensures r.err.None? <==> forall i :: 0 <= i < |items| ==> UntarItem(ops, dest, items[i], w).err.None?
    ensures r.err.None? ==> forall i :: 0 <= i < |items| ==> items[i].TarHeader? && items[i].typeflag in {TypeDir, TypeReg}
    ensures r.err.None? ==> r.ops == ConcatOps(UntarSteps(ops, dest, items, w))
    ensures forall op :: op in r.ops ==> !op.Download? && !op.Remove?
  {
    RunSteps(UntarSteps(ops, dest, items, w))
  }

  /** The first item that fails (a read error, a failed creation or copy, an
      unknown type flag) ends `untarGz` with its error: the items before it
      have done all their operations, the failing one those up to its
      failure, and the later ones nothing. */
  lemma UntarStopsAt(ops: PathOps, dest: string, items: seq<TarItem>, w: InstallWorld, k: nat)
    requires k < |items| && UntarItem(ops, dest, items[k], w).err.Some?
    requires forall j :: 0 <= j < k ==> UntarItem(ops, dest, items[j], w).err.None?
    ensures var failed := UntarItem(ops, dest, items[k], w);
            UntarItems(ops, dest, items, w)
              == ExtractRun(ConcatOps(UntarSteps(ops, dest, items, w)[..k]) + failed.ops, failed.err)
  {
    RunStepsStopsAt(UntarSteps(ops, dest, items, w), k);
  }

  /** An item of any type other than directory or regular file aborts
      `untarGz` with "unknown file type" once the items before it have been
      extracted; nothing after it is touched. */
  lemma UntarStopsAtUnknown(ops: PathOps, dest: string, items: seq<TarItem>, w: InstallWorld, k: nat)
    requires k < |items| && items[k].TarHeader? && items[k].typeflag != TypeDir && items[k].typeflag != TypeReg
    requires forall j :: 0 <= j < k ==> UntarItem(ops, dest, items[j], w).err.None?
    ensures UntarItems(ops, dest, items, w)
              == ExtractRun(ConcatOps(UntarSteps(ops, dest, items, w)[..k]), Some(UnknownType(items[k].typeflag)))
  {
    UntarStopsAt(ops, dest, items, w, k);
    assert ConcatOps(UntarSteps(ops, dest, items, w)[..k]) + [] == ConcatOps(UntarSteps(ops, dest, items, w)[..k]);
  }

  /** `untarGz` performs no path check: a regular entry is written wherever
      joining its name to the destination leads, also outside it. */
  lemma UntarWritesAnyPath(ops: PathOps, dest: string, name: string, data: seq<byte>, w: InstallWorld)
    requires forall op :: w.fail(op).None?
    ensures var target := ops.join(dest, name);
            UntarItems(ops, dest, [TarHeader(name, TypeReg, data)], w)
              == ExtractRun([MkdirAll(ops.dir(target)), Create(target), Copy(target, data)], None)
  {
    var target := ops.join(dest, name);
    var item := UntarItem(ops, dest, TarHeader(name, TypeReg, data), w);
    assert item.ops == [MkdirAll(ops.dir(target)), Create(target), Copy(target, data)];
    var steps := UntarSteps(ops, dest, [TarHeader(name, TypeReg, data)], w);
    assert steps == [item];
    assert ConcatOps(steps) == item.ops + ConcatOps([]);
  }

  /** `untarGz`: opening the archive, then its items. */
  function UntarArchive(ops: PathOps, src: string, dest: string, w: InstallWorld): (r: ExtractRun)
    ensures w.openTarGz(src).Failure? ==> r == ExtractRun([], Some(w.openTarGz(src).error))
    ensures w.openTarGz(src).Success? ==> r == UntarItems(ops, dest, w.openTarGz(src).value, w)
  {
    match w.openTarGz(src)
    case Failure(err) => ExtractRun([], Some(err))
    case Success(items) => UntarItems(ops, dest, items, w)
  }

  // ---------------------------------------------------------------------------
  // Installing

  /** The extraction step of `downloadAndInstallGo`: the platform's extractor
      into the toolchain directory, its error wrapped with the extractor's
      name. It never downloads or removes anything. */
  function ExtractArchive(g: GoInstaller, archive: string, host: Host, ops: PathOps, w: InstallWorld): (r: ExtractRun)
    ensures ExtractorFor(host.goos) == Unzip ==>
              var x := UnzipArchive(ops, archive, Render(g.toolchainDir), w);
              && r.ops == x.ops
              && (r.err.None? <==> x.err.None?)
              && (x.err.Some? ==> r.err == Some("error unzipping Go archive: " + x.err.value))
    ensures ExtractorFor(host.goos) == UntarGz ==>
              var x := UntarArchive(ops, archive, Render(g.toolchainDir), w);
              && r.ops == x.ops
              && (r.err.None? <==> x.err.None?)
              && (x.err.Some? ==> r.err == Some("error untarring Go archive: " + x.err.value))
    ensures forall op :: op in r.ops ==> !op.Download? && !op.Remove?
  {
    var dest := Render(g.toolchainDir);
    if ExtractorFor(host.goos) == Unzip then
      var x := UnzipArchive(ops, archive, dest, w);
      ExtractRun(x.ops, if x.err.Some? then Some("error unzipping Go archive: " + x.err.value) else None)
    else
      var x := UntarArchive(ops, archive, dest, w);
      ExtractRun(x.ops, if x.err.Some? then Some("error untarring Go archive: " + x.err.value) else None)
  }

  /** `downloadAndInstallGo`: download the archive to the temporary directory,
      extract it with the platform's extractor, and remove the archive once
      the download has succeeded. */
  function DownloadAndInstallGo(g: GoInstaller, version: string, host: Host, ops: PathOps, w: InstallWorld): (r: ExtractRun)
    ensures var name := ArchiveName(version, host.goos, host.goarch);
            |r.ops| > 0 && r.ops[0] == Download(DownloadUrl(name), ops.join(host.tempDir, name))
    ensures forall i :: 1 <= i < |r.ops| ==> !r.ops[i].Download?
    ensures var name := ArchiveName(version, host.goos, host.goarch);
            var download := Download(DownloadUrl(name), ops.join(host.tempDir, name));
            w.fail(download).Some? ==> r == ExtractRun([download], Some("error downloading Go archive: " + w.fail(download).value))
    ensures var name := ArchiveName(version, host.goos, host.goarch);
            var download := Download(DownloadUrl(name), ops.join(host.tempDir, name));
            w.fail(download).None? ==>
              && r.ops[|r.ops| - 1] == Remove(ops.join(host.tempDir, name))
              && (forall i :: 1 <= i < |r.ops| - 1 ==> !r.ops[i].Remove?)
              && r.err == ExtractArchive(g, ops.join(host.tempDir, name), host, ops, w).err
    ensures var name := ArchiveName(version, host.goos, host.goarch);
            var download := Download(DownloadUrl(name), ops.join(host.tempDir, name));
            w.fail(download).None? ==>
              r.ops == [download] + ExtractArchive(g, ops.join(host.tempDir, name), host, ops, w).ops
                       + [Remove(ops.join(host.tempDir, name))]
  {
    var name := ArchiveName(version, host.goos, host.goarch);
    var archive := ops.join(host.tempDir, name);
    var download := Download(DownloadUrl(name), archive);
    match w.fail(download)
    case Some(e) => ExtractRun([download], Some("error downloading Go archive: " + e))
    case None =>
      Bracketed(download, ExtractArchive(g, archive, host, ops, w), Remove(archive))
  }

  /** An extraction run between the download before it and the removal after it. */
  function Bracketed(download: Op, x: ExtractRun, remove: Op): (r: ExtractRun)
    requires forall op :: op in x.ops ==> !op.Download? && !op.Remove?
    ensures |r.ops| >= 2 && r.ops[0] == download && r.ops[|r.ops| - 1] == remove
    ensures forall i :: 1 <= i < |r.ops| - 1 ==> !r.ops[i].Download? && !r.ops[i].Remove?
    ensures r.err == x.err
    ensures r.ops == [download] + x.ops + [remove]
  {
    var all := [download] + x.ops + [remove];
    assert forall i :: 1 <= i < |all| - 1 ==> all[i] == x.ops[i - 1];
    ExtractRun(all, x.err)
  }

  /** An operation list that downloads at most at its head downloads nothing else. */
  lemma OnlyFirstDownloads(run: seq<Op>)
    requires |run| > 0 && forall i :: 1 <= i < |run| ==> !run[i].Download?
    ensures forall op :: op in run && op.Download? ==> op == run[0]
  {
  }

  /** `EnsureGo`: nothing to do when the toolchain is present; otherwise the
      latest stable version is resolved and installed. A failed type
      assertion in the version lookup panics through. */
  function EnsureGo(g: GoInstaller, resp: Response, host: Host, ops: PathOps, w: InstallWorld): (r: InstallRun)
    ensures IsGoInstalled(g, w) ==> r == InstallRun([], Pass)
    ensures !IsGoInstalled(g, w) && GetLatestGoVersion(resp).Failure? ==> r.ops == []
    ensures !IsGoInstalled(g, w) && GetLatestGoVersion(resp) == Failure(Panic) ==> r.result == Fail(Panic)
    ensures !IsGoInstalled(g, w) && GetLatestGoVersion(resp).Failure? && GetLatestGoVersion(resp).error.Error? ==>
              r.result == Fail(Error("error fetching latest Go version: " + GetLatestGoVersion(resp).error.msg))
    ensures r.result == Pass <==>
              IsGoInstalled(g, w)
              || (GetLatestGoVersion(resp).Success?
                  && DownloadAndInstallGo(g, GetLatestGoVersion(resp).value, host, ops, w).err.None?)
    ensures forall op :: op in r.ops ==> op.Download? ==>
              op.url == DownloadUrl(ArchiveName(GetLatestGoVersion(resp).value, host.goos, host.goarch))
    ensures !IsGoInstalled(g, w) && GetLatestGoVersion(resp).Success? ==>
              var run := DownloadAndInstallGo(g, GetLatestGoVersion(resp).value, host, ops, w);
              && r.ops == run.ops
              && (run.err.Some? ==> r.result == Fail(Error("error downloading and installing Go: " + run.err.value)))
  {
    if IsGoInstalled(g, w) then InstallRun([], Pass)
    else
      match GetLatestGoVersion(resp)
      case Failure(Panic) => InstallRun([], Fail(Panic))
      case Failure(Error(msg)) => InstallRun([], Fail(Error("error fetching latest Go version: " + msg)))
      case Success(version) =>
        var run := DownloadAndInstallGo(g, version, host, ops, w);
        OnlyFirstDownloads(run.ops);
        match run.err
        case Some(e) => InstallRun(run.ops, Fail(Error("error downloading and installing Go: " + e)))
        case None => InstallRun(run.ops, Pass)
  }
}

=== FILE: models.dfy ===
/** The configuration and project records of the build tool. */
module Models {
  import opened Paths

  /** One buildable program: a `main.go` directory paired with its module root. */
  datatype Project = Project(
    buildDir: Path,       // shared output directory of the run
    rootDir: Path,        // nearest directory holding go.mod
    appMainSrcDir: Path,  // directory holding main.go
    appName: string)      // base name of appMainSrcDir

  /** A build profile: operating systems with their architectures, and stage names. */
  datatype Profile = Profile(os: map<string, seq<string>>, stages: seq<string>)

  /** Where the Go toolchain lives and which version it should be. */
  datatype Toolchain = Toolchain(golang: string, location: Path)

  /** The profiles of a configuration file, selectable by name. */
  datatype Config = Config(profiles: map<string, Profile>, toolchain: Toolchain)

  /** The profile chosen for this run. */
  datatype SelectedConfig = SelectedConfig(profile: Profile, toolchain: Toolchain, currentVersion: string)

  const DefaultArchs: seq<string> := ["amd64", "arm64"]

  /** The configuration used when the project has no configuration file:
      three operating systems with two architectures each, every stage, and
      the latest toolchain kept next to the project directory. */
  function DefaultConfig(path: Path): (c: SelectedConfig)
    ensures c.profile.os.Keys == {"windows", "linux", "darwin"}
    ensures forall os :: os in c.profile.os ==> c.profile.os[os] == ["amd64", "arm64"]
    ensures c.profile.stages == ["test", "build", "hash"]
    ensures c.toolchain.golang == "latest"
    ensures Dir(c.toolchain.location) == Dir(path) && Base(c.toolchain.location) == ".toolchain"
  {
    SelectedConfig(
      Profile(
        map["windows" := DefaultArchs, "linux" := DefaultArchs, "darwin" := DefaultArchs],
        ["test", "build", "hash"]),
      Toolchain("latest", Join(Dir(path), ".toolchain")),
      "")
  }
}

=== FILE: paths.dfy ===
/** Absolute, clean file-system paths as sequences of components, the model of
    Go's `path/filepath` functions `Dir`, `Base` and `Join` on such paths. */
module Paths {
  import Text

  /** An absolute path by its components; the root `/` is the empty sequence. */
  type Path = seq<string>

  const Separator: char := '/'

  /** `filepath.Dir`: the parent directory; the root is its own parent. */
  function Dir(p: Path): (r: Path)
    ensures r <= p
    ensures p == [] <==> r == p
  {
    if p == [] then [] else p[..|p| - 1]
  }

  /** `filepath.Base`: the last component, or `/` for the root. */
  function Base(p: Path): string
  {
    if p == [] then "/" else p[|p| - 1]
  }

  /** `filepath.Join` of a path and one clean component. */
  function Join(p: Path, name: string): (r: Path)
    ensures Dir(r) == p && Base(r) == name
  {
    p + [name]
  }

  /** The textual form of a path, as Go's string-valued paths spell it. */
  function Render(p: Path): (r: string)
    ensures |r| > 0 && r[0] == Separator
    decreases |p|
  {
    if |p| <= 1 then (if p == [] then "/" else "/" + p[0])
    else Render(Dir(p)) + "/" + Base(p)
  }

  /** A substring of a directory's text is a substring of its children's text. */
  lemma ContainsInDir(p: Path, sub: string)
    requires p != []
    requires Text.Contains(Render(Dir(p)), sub)
    ensures Text.Contains(Render(p), sub)
  {
    var d := Render(Dir(p));
    if |p| == 1 {
      assert d == "/" && Render(p) == d + p[0];
      Text.ContainsExtend(d, p[0], sub);
    } else {
      assert Render(p) == d + "/" + Base(p);
      Text.ContainsExtend(d, "/", sub);
      Text.ContainsExtend(d + "/", Base(p), sub);
    }
  }
}

=== FILE: targets.dfy ===
/** The target matrix: a profile's map from operating system to architectures,
    flattened into (GOOS, GOARCH, executable suffix) triples. */
module Targets {
  import opened Models

  /** One cross-compilation target. */
  datatype Target = Target(goos: string, goarch: string, execSuffix: string)

  /** The executable suffix of an operating system: only Windows has one. */
  function ExecSuffix(goos: string): string
  {
    if goos == "windows" then ".exe" else ""
  }

  /** `order` lists every key of `m` exactly once: one iteration order of a Go map. */
  predicate Enumerates<V>(order: seq<string>, m: map<string, V>)
  {
    && (forall i :: 0 <= i < |order| ==> order[i] in m)
    && (forall k :: k in m ==> k in order)
    && (forall i, j :: 0 <= i < j < |order| ==> order[i] != order[j])
  }

  /** The number of architectures listed for the systems in `order`. */
  function ArchCount(m: map<string, seq<string>>, order: seq<string>): nat
    requires forall i :: 0 <= i < |order| ==> order[i] in m
  {
    if order == [] then 0 else |m[order[0]]| + ArchCount(m, order[1..])
  }

  /** The targets of one operating system, in the order of its architectures. */
  function OsTargets(goos: string, archs: seq<string>): (r: seq<Target>)
    ensures |r| == |archs|
  {
    seq(|archs|, i requires 0 <= i < |archs| => Target(goos, archs[i], ExecSuffix(goos)))
  }

  /** The architectures of the targets for `goos`, in target order. */
  function ArchsOf(ts: seq<Target>, goos: string): seq<string>
  {
    if ts == [] then []
    else (if ts[0].goos == goos then [ts[0].goarch] else []) + ArchsOf(ts[1..], goos)
  }

  /** `NewGoBuilder`'s target expansion, visiting the systems in `order`. */
  function ExpandTargets(m: map<string, seq<string>>, order: seq<string>): (r: seq<Target>)
    requires forall i :: 0 <= i < |order| ==> order[i] in m
    ensures |r| == ArchCount(m, order)
    ensures forall t :: t in r <==>
              t.goos in order && t.goos in m && t.goarch in m[t.goos] && t.execSuffix == ExecSuffix(t.goos)
    ensures forall t :: t in r ==> (t.execSuffix == ".exe" <==> t.goos == "windows")
  {
    if order == [] then []
    else
      var head := OsTargets(order[0], m[order[0]]);
      var rest := ExpandTargets(m, order[1..]);
      assert forall t: Target :: t in head <==> t.goos == order[0] && t.goarch in m[order[0]] && t.execSuffix == ExecSuffix(t.goos) by {
        forall t: Target | t in head ensures t.goos == order[0] && t.goarch in m[order[0]] {
          var i :| 0 <= i < |head| && head[i] == t;
        }
        forall t: Target | t.goos == order[0] && t.goarch in m[order[0]] && t.execSuffix == ExecSuffix(t.goos) ensures t in head {
          var i :| 0 <= i < |m[order[0]]| && m[order[0]][i] == t.goarch;
          assert head[i] == t;
        }
      }
      assert forall g :: g in order <==> g == order[0] || g in order[1..];
      head + rest
  }

  lemma {:induction false} ArchsOfAppend(a: seq<Target>, b: seq<Target>, goos: string)
    ensures ArchsOf(a + b, goos) == ArchsOf(a, goos) + ArchsOf(b, goos)
  {
    if a != [] {
      assert (a + b)[1..] == a[1..] + b;
      ArchsOfAppend(a[1..], b, goos);
    } else {
      assert a + b == b;
    }
  }

  lemma {:induction false} ArchsOfOsTargets(os: string, archs: seq<string>, goos: string)
    ensures ArchsOf(OsTargets(os, archs), goos) == if os == goos then archs else []
  {
    if archs != [] {
      assert OsTargets(os, archs)[1..] == OsTargets(os, archs[1..]);
      ArchsOfOsTargets(os, archs[1..], goos);
      assert archs == [archs[0]] + archs[1..];
    }
  }

  /** For every system listed once in `order`, its targets carry exactly its
      architecture list, in list order and with repetitions; other systems
      get none. */
  lemma {:induction false} ExpandTargetsPerOs(m: map<string, seq<string>>, order: seq<string>, goos: string)
    requires forall i :: 0 <= i < |order| ==> order[i] in m
    requires forall i, j :: 0 <= i < j < |order| ==> order[i] != order[j]
    ensures ArchsOf(ExpandTargets(m, order), goos) == if goos in order then m[goos] else []
  {
    if order != [] {
      ArchsOfAppend(OsTargets(order[0], m[order[0]]), ExpandTargets(m, order[1..]), goos);
      ArchsOfOsTargets(order[0], m[order[0]], goos);
      ExpandTargetsPerOs(m, order[1..], goos);
      assert goos in order <==> goos == order[0] || goos in order[1..];
      if goos == order[0] {
        assert goos !in order[1..] by {
          forall i | 0 <= i < |order[1..]| ensures order[1..][i] != goos {
            assert order[i + 1] != order[0];
          }
        }
      }
    }
  }

  /** A list without repetitions has as many elements as its set. */
  lemma {:induction false} DistinctCardinality(order: seq<string>)
    requires forall i, j :: 0 <= i < j < |order| ==> order[i] != order[j]
    ensures |set k | k in order| == |order|
  {
    if order != [] {
      DistinctCardinality(order[1..]);
      var tail := set k | k in order[1..];
      assert order[0] !in tail by {
        forall i | 0 <= i < |order[1..]| ensures order[1..][i] != order[0] {
          assert order[i + 1] != order[0];
        }
      }
      assert (set k | k in order) == {order[0]} + tail;
    }
  }

  lemma {:induction false} ArchCountUniform(m: map<string, seq<string>>, order: seq<string>, n: nat)
    requires forall i :: 0 <= i < |order| ==> order[i] in m && |m[order[i]]| == n
    ensures ArchCount(m, order) == n * |order|
  {
    if order != [] {
      ArchCountUniform(m, order[1..], n);
    }
  }

  /** The number of Windows executables among the targets. */
  function ExeCount(ts: seq<Target>): nat
  {
    if ts == [] then 0 else (if ts[0].execSuffix == ".exe" then 1 else 0) + ExeCount(ts[1..])
  }

  lemma {:induction false} ExeCountIsWindowsArchs(ts: seq<Target>)
    requires forall t :: t in ts ==> (t.execSuffix == ".exe" <==> t.goos == "windows")
    ensures ExeCount(ts) == |ArchsOf(ts, "windows")|
  {
    if ts != [] {
      assert forall t :: t in ts[1..] ==> t in ts;
      ExeCountIsWindowsArchs(ts[1..]);
    }
  }

  /** The default profile expands, in any iteration order of its map, into six
      targets: amd64 and arm64 for each of windows, linux and darwin, of which
      exactly the two Windows ones carry the `.exe` suffix. */
  lemma DefaultTargets(path: Paths.Path, order: seq<string>)
    requires Enumerates(order, DefaultConfig(path).profile.os)
    ensures var ts := ExpandTargets(DefaultConfig(path).profile.os, order);
            && |ts| == 6
            && ExeCount(ts) == 2
            && (forall os, arch :: os in {"windows", "linux", "darwin"} && arch in DefaultArchs
                  ==> Target(os, arch, ExecSuffix(os)) in ts)
  {
    var m := DefaultConfig(path).profile.os;
    var ts := ExpandTargets(m, order);
    assert m.Keys == {"windows", "linux", "darwin"};
    assert |order| == 3 by {
      DistinctCardinality(order);
      assert (set k | k in order) == m.Keys;
      assert |m.Keys| == 3;
    }
    assert |ts| == 6 by {
      ArchCountUniform(m, order, 2);
    }
    assert ExeCount(ts) == 2 by {
      ExeCountIsWindowsArchs(ts);
      ExpandTargetsPerOs(m, order, "windows");
      assert "windows" in order;
    }
  }
}

=== FILE: text.dfy ===
/** The few operations of Go's `strings` package the core relies on. */
module Text {

  /** `sub` occurs in `s` starting at index `i`. */
  predicate OccursAt(s: string, sub: string, i: int)
  {
    0 <= i && i + |sub| <= |s| && s[i..i + |sub|] == sub
  }

  /** Go's `strings.Contains`. */
  predicate Contains(s: string, sub: string)
  {
    exists i | 0 <= i <= |s| - |sub| :: OccursAt(s, sub, i)
  }

  /** Go's `strings.HasPrefix`. */
  predicate HasPrefix(s: string, prefix: string)
  {
    prefix <= s
  }

  /** Containment survives extending the string on the right. */
  lemma ContainsExtend(a: string, b: string, sub: string)
    requires Contains(a, sub)
    ensures Contains(a + b, sub)
  {
    var i :| 0 <= i <= |a| - |sub| && OccursAt(a, sub, i);
    assert (a + b)[i..i + |sub|] == a[i..i + |sub|];
    assert OccursAt(a + b, sub, i);
  }

  /** The lower-case form of one rune under Go's `unicode.ToLower`, for every
      rune whose lower-case form is ASCII: the letters A-Z, U+0130 (capital I
      with dot above, lowered to `i`) and U+212A (the Kelvin sign, lowered to `k`).
      Any other rune is returned unchanged. */
  function LowerRune(c: char): (r: char)
  {
    if 'A' <= c <= 'Z' then (c as int + 32) as char
    else if c == '\U{0130}' then 'i'
    else if c == '\U{212A}' then 'k'
    else c
  }

  /** Go's `strings.ToLower`, rune by rune. */
  function ToLower(s: string): (r: string)
    ensures |r| == |s|
    ensures forall i :: 0 <= i < |s| ==> r[i] == LowerRune(s[i])
  {
    seq(|s|, i requires 0 <= i < |s| => LowerRune(s[i]))
  }

  /** `c` is `d` or one of its capitals: the ASCII upper-case letter, and for
      `i` and `k` also the non-ASCII runes Unicode lowers to them. */
  predicate IsCaseVariant(c: char, d: char)
  {
    || c == d
    || ('a' <= d <= 'z' && c as int == d as int - 32)
    || (d == 'i' && c == '\U{0130}')
    || (d == 'k' && c == '\U{212A}')
  }

  /** An ASCII rune that is not an upper-case letter. */
  predicate IsLowerAscii(d: char)
  {
    d as int < 128 && !('A' <= d <= 'Z')
  }

  /** The runes that lower to an ASCII rune `d` are exactly its case variants. */
  lemma LowerRuneVariants(c: char, d: char)
    requires IsLowerAscii(d)
    ensures LowerRune(c) == d <==> IsCaseVariant(c, d)
  {
  }

  /** Comparing a lowered string with a lower-case ASCII text, as the walk
      does with `main.go`, accepts exactly the spellings that differ from the
      text only in the case of each rune. */
  lemma ToLowerEquals(s: string, t: string)
    requires forall i :: 0 <= i < |t| ==> IsLowerAscii(t[i])
    ensures ToLower(s) == t <==> |s| == |t| && forall i :: 0 <= i < |s| ==> IsCaseVariant(s[i], t[i])
  {
    if |s| == |t| {
      forall i | 0 <= i < |s| ensures ToLower(s)[i] == t[i] <==> IsCaseVariant(s[i], t[i]) {
        LowerRuneVariants(s[i], t[i]);
      }
      if forall i :: 0 <= i < |s| ==> IsCaseVariant(s[i], t[i]) {
        assert forall i :: 0 <= i < |s| ==> ToLower(s)[i] == t[i];
      }
    }
  }

  /** Lowering is idempotent and leaves no ASCII capital behind. */
  lemma ToLowerIdempotent(s: string)
    ensures ToLower(ToLower(s)) == ToLower(s)
    ensures forall i :: 0 <= i < |s| ==> !('A' <= ToLower(s)[i] <= 'Z')
  {
  }

  /** Decimal rendering of a natural number, as `%v` prints an integer. */
  function Decimal(n: nat): (r: string)
    ensures |r| > 0
    ensures forall i :: 0 <= i < |r| ==> '0' <= r[i] <= '9'
  {
    var digit := ['0' + ((n % 10) as char)];
    if n < 10 then digit else Decimal(n / 10) + digit
  }
}

=== FILE: version.dfy ===
/** Resolving the latest stable Go release: the first stable entry of the
    release index, and the version number taken out of its `goX.Y.Z` name. */
module Version {
  import opened Wrappers

  /** A JSON value as seen through a type assertion. */
  datatype JsonValue = JBool(b: bool) | JString(s: string) | JOther | JAbsent

  /** The two fields of one release index entry the resolver looks at. */
  datatype Release = Release(stable: JsonValue, version: JsonValue)

  /** What the HTTP request for the release index produced: a transport
      error, or a response with its status and the result of decoding its
      body as a list of entries. */
  datatype Response =
    | TransportError(err: string)
    | Response(code: int, status: string, decoded: Result<seq<Release>, string>)

  /** How a Go function ends: with an error value, or by panicking (a failed
      type assertion). */
  datatype GoError = Error(msg: string) | Panic

  const StatusOK: int := 200
  const NoStableVersion: string := "no stable version found"

  /** `version["stable"].(bool)` succeeds and is true. */
  predicate IsStable(r: Release)
  {
    r.stable == JBool(true)
  }

  /** The index of the first stable entry, if there is one. */
  function FirstStable(rs: seq<Release>): (r: Option<nat>)
    ensures r.Some? ==> r.value < |rs| && IsStable(rs[r.value])
    ensures r.Some? ==> forall j :: 0 <= j < r.value ==> !IsStable(rs[j])
    ensures r.None? <==> forall j :: 0 <= j < |rs| ==> !IsStable(rs[j])
  {
    if rs == [] then None
    else if IsStable(rs[0]) then Some(0)
    else
      match FirstStable(rs[1..])
      case None => None
      case Some(k) => Some(k + 1)
  }

  // ---------------------------------------------------------------------------
  // The pattern `go([0-9.]+)`

  predicate IsVersionChar(c: char)
  {
    '0' <= c <= '9' || c == '.'
  }

  /** A match of `go[0-9.]` starts at index `i`. */
  predicate MatchesAt(s: string, i: nat)
  {
    i + 2 < |s| && s[i] == 'g' && s[i + 1] == 'o' && IsVersionChar(s[i + 2])
  }

  /** The end of the run of version characters starting at `j`. */
  function RunEnd(s: string, j: nat): (k: nat)
    requires j <= |s|
    ensures j <= k <= |s|
    ensures forall m :: j <= m < k ==> IsVersionChar(s[m])
    ensures k == |s| || !IsVersionChar(s[k])
    decreases |s| - j
  {
    if j == |s| || !IsVersionChar(s[j]) then j else RunEnd(s, j + 1)
  }

  /** The first index at or after `i` where a match starts. */
  function LeftmostMatch(s: string, i: nat): (r: Option<nat>)
    ensures r.Some? ==> i <= r.value && MatchesAt(s, r.value)
    ensures r.Some? ==> forall j :: i <= j < r.value ==> !MatchesAt(s, j)
    ensures r.None? <==> forall j :: i <= j ==> !MatchesAt(s, j)
    decreases |s| - i
  {
    if i + 2 >= |s| then None
    else if MatchesAt(s, i) then Some(i)
    else LeftmostMatch(s, i + 1)
  }

  /** `r` is the capture of the leftmost match, which starts at `i`: a
      maximal run of version characters right after `go`. */
  predicate LeftmostCapture(s: string, i: nat, r: string)
  {
    && MatchesAt(s, i)
    && (forall j :: 0 <= j < i ==> !MatchesAt(s, j))
    && i + 2 + |r| <= |s|
    && r == s[i + 2..i + 2 + |r|]
    && (forall k :: 0 <= k < |r| ==> IsVersionChar(r[k]))
    && (i + 2 + |r| == |s| || !IsVersionChar(s[i + 2 + |r|]))
  }

  /** `extractVersionNumber`: the capture group of the leftmost match of
      `go([0-9.]+)`, whose greedy repetition takes the longest run of digits
      and dots; the empty string when nothing matches. */
  function ExtractVersionNumber(s: string): (r: string)
    ensures r == "" <==> forall i :: !MatchesAt(s, i)
    ensures forall k :: 0 <= k < |r| ==> IsVersionChar(r[k])
    ensures r != "" ==> exists i: nat :: LeftmostCapture(s, i, r)
  {
    match LeftmostMatch(s, 0)
    case None => ""
    case Some(i) =>
      var r := CaptureAt(s, i);
      assert LeftmostCapture(s, i, r);
      r
  }

  /** The greedy capture of `[0-9.]+` for a match starting at `i`. */
  function CaptureAt(s: string, i: nat): (r: string)
    requires MatchesAt(s, i)
    ensures r != ""
    ensures i + 2 + |r| <= |s| && r == s[i + 2..i + 2 + |r|]
    ensures forall k :: 0 <= k < |r| ==> IsVersionChar(r[k])
    ensures i + 2 + |r| == |s| || !IsVersionChar(s[i + 2 + |r|])
  {
    var end := RunEnd(s, i + 2);
    var r := s[i + 2..end];
    assert r[0] == s[i + 2];
    assert forall k :: 0 <= k < |r| ==> r[k] == s[i + 2 + k];
    r
  }

  /** Any string of the pattern's shape determines its capture: a leftmost,
      maximal run of version characters after `go` is the one extracted. */
  lemma ExtractVersionNumberUnique(s: string, i: nat, v: string)
    requires LeftmostCapture(s, i, v)
    ensures ExtractVersionNumber(s) == v
  {
    var lm := LeftmostMatch(s, 0);
    assert lm.Some?;
    assert lm.value == i;
    var end := RunEnd(s, i + 2);
    forall m | i + 2 <= m < i + 2 + |v| ensures IsVersionChar(s[m]) {
      assert s[m] == v[m - (i + 2)];
    }
    RunsAgree(s, i + 2, end - (i + 2), |v|);
  }

  /** Two maximal runs of version characters from the same index have the
      same length. */
  lemma RunsAgree(s: string, j: nat, a: nat, b: nat)
    requires j + a <= |s| && j + b <= |s|
    requires forall m :: j <= m < j + a ==> IsVersionChar(s[m])
    requires forall m :: j <= m < j + b ==> IsVersionChar(s[m])
    requires j + a == |s| || !IsVersionChar(s[j + a])
    requires j + b == |s| || !IsVersionChar(s[j + b])
    ensures a == b
  {
    if j + a < |s| { assert !IsVersionChar(s[j + a]); }
    if j + b < |s| { assert !IsVersionChar(s[j + b]); }
  }

  /** A release name `go<v>` yields `v` when `v` is a run of digits and dots. */
  lemma ExtractFromReleaseName(v: string)
    requires v != [] && forall k :: 0 <= k < |v| ==> IsVersionChar(v[k])
    ensures ExtractVersionNumber("go" + v) == v
  {
    var s := "go" + v;
    assert s[2] == v[0];
    assert s[2..2 + |v|] == v;
    assert LeftmostCapture(s, 0, v);
    ExtractVersionNumberUnique(s, 0, v);
  }

  /** Extraction is idempotent on the release-name form: renaming a result as
      `go<result>` and extracting again gives the same result. */
  lemma ExtractIdempotent(s: string)
    requires ExtractVersionNumber(s) != ""
    ensures ExtractVersionNumber("go" + ExtractVersionNumber(s)) == ExtractVersionNumber(s)
  {
    ExtractFromReleaseName(ExtractVersionNumber(s));
  }

  /** The example in the source: `go1.17.2` gives `1.17.2`. */
  lemma ExtractExample()
    ensures ExtractVersionNumber("go1.17.2") == "1.17.2"
  {
    var v := "1.17.2";
    assert forall k :: 0 <= k < |v| ==> IsVersionChar(v[k]) by {
      assert v[0] == '1' && v[1] == '.' && v[2] == '1' && v[3] == '7' && v[4] == '.' && v[5] == '2';
    }
    assert "go" + v == "go1.17.2";
    ExtractFromReleaseName(v);
  }

  /** A release candidate name keeps only its leading numeric part. */
  lemma ExtractStopsAtLetter()
    ensures ExtractVersionNumber("go1.22rc1") == "1.22"
  {
    var s := "go1.22rc1";
    var v := "1.22";
    assert s[2..6] == v;
    assert forall k :: 0 <= k < |v| ==> IsVersionChar(v[k]) by {
      assert v[0] == '1' && v[1] == '.' && v[2] == '2' && v[3] == '2';
    }
    assert LeftmostCapture(s, 0, v);
    ExtractVersionNumberUnique(s, 0, v);
  }

  // ---------------------------------------------------------------------------
  // GetLatestGoVersion

  /** Entry `i` is the first stable entry of `rs`. */
  predicate FirstStableAt(rs: seq<Release>, i: int)
  {
    0 <= i < |rs| && IsStable(rs[i]) && forall j :: 0 <= j < i ==> !IsStable(rs[j])
  }

  /** There is at most one first stable entry. */
  lemma FirstStableAtUnique(rs: seq<Release>, i: int, j: int)
    requires FirstStableAt(rs, i) && FirstStableAt(rs, j)
    ensures i == j
  {
    assert IsStable(rs[i]) && IsStable(rs[j]);
  }

  /** `GetLatestGoVersion`, given what the request for the release index
      produced. */
  function GetLatestGoVersion(resp: Response): (r: Result<string, GoError>)
    ensures resp.TransportError? ==> r == Failure(Error(resp.err))
    ensures resp.Response? && resp.code != StatusOK ==> r == Failure(Error("error fetching Go versions: " + resp.status))
    ensures resp.Response? && resp.code == StatusOK && resp.decoded.Failure? ==> r == Failure(Error(resp.decoded.error))
    ensures (&& resp.Response? && resp.code == StatusOK && resp.decoded.Success?
             && forall j :: 0 <= j < |resp.decoded.value| ==> !IsStable(resp.decoded.value[j]))
            ==> r == Failure(Error(NoStableVersion))
    ensures r.Success? <==>
              && resp.Response? && resp.code == StatusOK && resp.decoded.Success?
              && exists i :: FirstStableAt(resp.decoded.value, i) && resp.decoded.value[i].version.JString?
    ensures r.Success? ==>
              exists i :: && FirstStableAt(resp.decoded.value, i)
                          && resp.decoded.value[i].version.JString?
                          && r.value == ExtractVersionNumber(resp.decoded.value[i].version.s)
    ensures r == Failure(Panic) <==>
              && resp.Response? && resp.code == StatusOK && resp.decoded.Success?
              && exists i :: FirstStableAt(resp.decoded.value, i) && !resp.decoded.value[i].version.JString?
  {
    match resp
    case TransportError(err) => Failure(Error(err))
    case Response(code, status, decoded) =>
      if code != StatusOK then Failure(Error("error fetching Go versions: " + status))
      else
        match decoded
        case Failure(err) => Failure(Error(err))
        case Success(rs) =>
          match FirstStable(rs)
          case None => Failure(Error(NoStableVersion))
          case Some(i) =>
            assert FirstStableAt(rs, i);
            assert forall j :: FirstStableAt(rs, j) ==> j == i by {
              forall j | FirstStableAt(rs, j) ensures j == i {
                FirstStableAtUnique(rs, i, j);
              }
            }
            match rs[i].version
            case JString(v) => Success(ExtractVersionNumber(v))
            case _ => Failure(Panic)
  }
}

=== FILE: walker.dfy ===
/** Project discovery: the walk over a source tree that pairs every `main.go`
    with the nearest enclosing `go.mod` directory. The file system is given as
    the walk's visit sequence plus the predicate "this directory holds go.mod". */
module Walker {
  import opened Wrappers
  import opened Paths
  import Text
  import opened Models

  /** One visit of the directory walk: an entry, or an error reaching it. */
  datatype WalkEntry =
    | Visit(path: Path, isDir: bool)
    | AccessError(path: Path, err: string)

  /** What the walker puts on its output channel. */
  datatype ChannelEvent = Send(project: Project) | Close

  /** The walker's configuration; `hasDest` is false for a nil channel. */
  datatype ProjectWalker = ProjectWalker(path: string, buildDir: Path, hasDest: bool)

  const NotInitialized: string := "projectWalker not initialized"

  /** Some directory on the chain from `d` up to the root holds go.mod. */
  ghost predicate HasModuleRoot(d: Path, hasGoMod: Path -> bool)
  {
    exists k :: 0 <= k <= |d| && hasGoMod(d[..k])
  }

  /** The upward search for go.mod, starting at `d` itself; each step moves to
      the parent, so the path gets shorter until the root is its own parent. */
  function FindNearestGoMod(d: Path, hasGoMod: Path -> bool): (r: Option<Path>)
    ensures r.Some? ==> r.value <= d && hasGoMod(r.value)
    ensures r.Some? ==> forall k :: |r.value| < k <= |d| ==> !hasGoMod(d[..k])
    ensures r.None? <==> !HasModuleRoot(d, hasGoMod)
    decreases |d|
  {
    if hasGoMod(d) then
      assert d[..|d|] == d;
      Some(d)
    else if Dir(d) == d then None
    else
      var r := FindNearestGoMod(Dir(d), hasGoMod);
      assert forall k :: 0 <= k < |d| ==> Dir(d)[..k] == d[..k];
      assert d[..|d|] == d;
      r
  }

  /** A path the walk ignores: its text mentions the toolchain cache or the
      build output directory anywhere. */
  predicate Excluded(p: Path)
  {
    Text.Contains(Render(p), ".toolchain") || Text.Contains(Render(p), ".build")
  }

  /** A directory of a path the walk does not ignore is not ignored either. */
  lemma ExcludedDir(p: Path)
    requires p != []
    ensures Excluded(Dir(p)) ==> Excluded(p)
  {
    if Text.Contains(Render(Dir(p)), ".toolchain") { ContainsInDir(p, ".toolchain"); }
    if Text.Contains(Render(Dir(p)), ".build") { ContainsInDir(p, ".build"); }
  }

  /** Every path inside an ignored directory, at any depth, is ignored. */
  lemma {:induction false} ExcludedAncestor(p: Path, k: nat)
    requires k <= |p|
    ensures Excluded(p[..k]) ==> Excluded(p)
    decreases |p| - k
  {
    if k < |p| && Excluded(p[..k]) {
      var q := p[..k + 1];
      assert Dir(q) == p[..k];
      ExcludedDir(q);
      assert p[..k + 1][..k + 1] == q;
      ExcludedAncestor(p, k + 1);
    } else if k == |p| {
      assert p[..k] == p;
    }
  }

  /** No directory strictly between the project's main.go directory and its
      root holds go.mod: the root is the nearest one. */
  predicate NearestRoot(p: Project, hasGoMod: Path -> bool)
  {
    forall k :: |p.rootDir| < k <= |p.appMainSrcDir| ==> !hasGoMod(p.appMainSrcDir[..k])
  }

  /** The entry's name is `main.go` ignoring case. */
  predicate IsMainGo(p: Path)
  {
    Text.ToLower(Base(p)) == "main.go"
  }

  /** `MAIN.GO`, `Main.Go` and every other spelling differing from `main.go`
      only in case name a main file, and nothing else does. */
  lemma MainGoSpellings(p: Path)
    ensures IsMainGo(p) <==>
              |Base(p)| == 7 && forall i :: 0 <= i < 7 ==> Text.IsCaseVariant(Base(p)[i], "main.go"[i])
  {
    var t := "main.go";
    assert forall i :: 0 <= i < |t| ==> Text.IsLowerAscii(t[i]) by {
      assert t[0] == 'm' && t[1] == 'a' && t[2] == 'i' && t[3] == 'n' && t[4] == '.' && t[5] == 'g' && t[6] == 'o';
    }
    Text.ToLowerEquals(Base(p), t);
  }

  /** The walk callback for one entry: the project it publishes, if any. */
  function Discover(e: WalkEntry, buildDir: Path, hasGoMod: Path -> bool): (r: Option<Project>)
    ensures r.Some? <==>
              && e.Visit? && !e.isDir && IsMainGo(e.path) && !Excluded(e.path)
              && HasModuleRoot(Dir(e.path), hasGoMod)
    ensures r.Some? ==>
              && r.value.appMainSrcDir == Dir(e.path)
              && r.value.appName == Base(Dir(e.path))
              && r.value.buildDir == buildDir
              && r.value.rootDir <= r.value.appMainSrcDir
              && hasGoMod(r.value.rootDir)
              && !Excluded(r.value.appMainSrcDir)
    ensures r.Some? ==> NearestRoot(r.value, hasGoMod)
  {
    match e
    case AccessError(_, _) => None
    case Visit(path, isDir) =>
      if Excluded(path) then None
      else if isDir || !IsMainGo(path) then None
      else
        var mainGoDir := Dir(path);
        match FindNearestGoMod(mainGoDir, hasGoMod)
        case None => None
        case Some(root) =>
          assert path != [] by { assert Text.ToLower(Base([])) == "/"; }
          ExcludedDir(path);
          Some(Project(buildDir, root, mainGoDir, Base(mainGoDir)))
  }

  /** Every project the walk publishes, in visit order. */
  function FindMainAndGoMod(entries: seq<WalkEntry>, buildDir: Path, hasGoMod: Path -> bool): (r: seq<Project>)
    ensures |r| <= |entries|
    ensures forall i :: 0 <= i < |r| ==>
              && r[i].buildDir == buildDir
              && r[i].appName == Base(r[i].appMainSrcDir)
              && r[i].rootDir <= r[i].appMainSrcDir
              && hasGoMod(r[i].rootDir)
    ensures forall i :: 0 <= i < |r| ==> NearestRoot(r[i], hasGoMod)
  {
    if entries == [] then []
    else
      var rest := FindMainAndGoMod(entries[1..], buildDir, hasGoMod);
      match Discover(entries[0], buildDir, hasGoMod)
      case None => rest
      case Some(p) => [p] + rest
  }

  /** The walk is processed entry by entry: the projects of a concatenated
      visit sequence are those of its parts, in order. */
  lemma {:induction false} FindMainAndGoModAppend(a: seq<WalkEntry>, b: seq<WalkEntry>, buildDir: Path, hasGoMod: Path -> bool)
    ensures FindMainAndGoMod(a + b, buildDir, hasGoMod)
         == FindMainAndGoMod(a, buildDir, hasGoMod) + FindMainAndGoMod(b, buildDir, hasGoMod)
  {
    if a == [] {
      assert a + b == b;
    } else {
      assert (a + b)[1..] == a[1..] + b;
      FindMainAndGoModAppend(a[1..], b, buildDir, hasGoMod);
    }
  }

  /** An entry that cannot be accessed is skipped and the walk goes on with
      the entries after it. */
  lemma AccessErrorSkipped(a: seq<WalkEntry>, path: Path, err: string, b: seq<WalkEntry>, buildDir: Path, hasGoMod: Path -> bool)
    ensures FindMainAndGoMod(a + [AccessError(path, err)] + b, buildDir, hasGoMod)
         == FindMainAndGoMod(a, buildDir, hasGoMod) + FindMainAndGoMod(b, buildDir, hasGoMod)
  {
    var e := [AccessError(path, err)];
    assert Discover(e[0], buildDir, hasGoMod) == None;
    assert e[1..] == [];
    assert FindMainAndGoMod(e, buildDir, hasGoMod) == [];
    FindMainAndGoModAppend(a + e, b, buildDir, hasGoMod);
    FindMainAndGoModAppend(a, e, buildDir, hasGoMod);
    assert FindMainAndGoMod(a, buildDir, hasGoMod) + [] == FindMainAndGoMod(a, buildDir, hasGoMod);
  }

  /** A project is published exactly when some visited entry yields it. */
  lemma {:induction false} FindMainAndGoModMembers(entries: seq<WalkEntry>, buildDir: Path, hasGoMod: Path -> bool, p: Project)
    ensures p in FindMainAndGoMod(entries, buildDir, hasGoMod)
        <==> exists i :: 0 <= i < |entries| && Discover(entries[i], buildDir, hasGoMod) == Some(p)
  {
    if entries != [] {
      var tail := entries[1..];
      var rest := FindMainAndGoMod(tail, buildDir, hasGoMod);
      var here := Discover(entries[0], buildDir, hasGoMod);
      assert p in FindMainAndGoMod(entries, buildDir, hasGoMod) <==> here == Some(p) || p in rest by {
        assert FindMainAndGoMod(entries, buildDir, hasGoMod) == (if here.Some? then [here.value] + rest else rest);
      }
      assert p in rest <==> exists i :: 0 <= i < |tail| && Discover(tail[i], buildDir, hasGoMod) == Some(p) by {
        FindMainAndGoModMembers(tail, buildDir, hasGoMod, p);
      }
      assert forall i :: 0 <= i < |tail| ==> tail[i] == entries[i + 1];
      if exists i :: 0 <= i < |entries| && Discover(entries[i], buildDir, hasGoMod) == Some(p) {
        var i :| 0 <= i < |entries| && Discover(entries[i], buildDir, hasGoMod) == Some(p);
        if i > 0 {
          assert Discover(tail[i - 1], buildDir, hasGoMod) == Some(p);
        }
      }
    }
  }

  /** `ProjectWalker.Run`: refuses a walker without a root path or channel before
      walking; otherwise publishes every discovered project and then closes the
      channel once. */
  function Run(w: ProjectWalker, entries: seq<WalkEntry>, hasGoMod: Path -> bool): (r: Result<seq<ChannelEvent>, string>)
    ensures (w.path == "" || !w.hasDest) <==> r == Failure(NotInitialized)
    ensures w.path != "" && w.hasDest ==> r.Success?
    ensures r.Success? ==>
              var sent := FindMainAndGoMod(entries, w.buildDir, hasGoMod);
              && |r.value| == |sent| + 1
              && r.value[|sent|] == Close
              && forall i :: 0 <= i < |sent| ==> r.value[i] == Send(sent[i])
  {
    if w.path == "" || !w.hasDest then Failure(NotInitialized)
    else
      var sent := FindMainAndGoMod(entries, w.buildDir, hasGoMod);
      Success(seq(|sent|, i requires 0 <= i < |sent| => Send(sent[i])) + [Close])
  }

  /** Neither `.toolchain` nor `.build` occurs in a text whose only dot
      starts `.go` at its end. */
  lemma NotExcludedText(s: string)
    requires |s| >= 3 && s[|s| - 3..] == ".go"
    requires forall i :: 0 <= i < |s| - 3 ==> s[i] != '.'
    ensures !Text.Contains(s, ".toolchain") && !Text.Contains(s, ".build")
  {
    forall i | 0 <= i <= |s| - |".toolchain"| ensures !Text.OccursAt(s, ".toolchain", i) {
      assert s[i..i + |".toolchain"|][0] == s[i];
    }
    forall i | 0 <= i <= |s| - |".build"| ensures !Text.OccursAt(s, ".build", i) {
      assert s[i..i + |".build"|][0] == s[i];
    }
  }

  lemma NotExcludedApp1()
    ensures !Excluded(["app1", "main.go"])
  {
    var s := Render(["app1", "main.go"]);
    assert s == "/app1/main.go";
    NotExcludedText(s);
  }

  lemma NotExcludedApp2()
    ensures !Excluded(["lib", "app2", "main.go"])
  {
    assert Render(["lib", "app2"]) == "/lib/app2";
    var s := Render(["lib", "app2", "main.go"]);
    assert s == "/lib/app2/main.go";
    NotExcludedText(s);
  }

  /** The directories holding go.mod in the scenario below. */
  predicate ScenarioGoMods(d: Path)
  {
    d == [] || d == ["app1"]
  }

  lemma ScenarioApp1(buildDir: Path)
    ensures Discover(Visit(["app1", "main.go"], false), buildDir, ScenarioGoMods)
         == Some(Project(buildDir, ["app1"], ["app1"], "app1"))
  {
    NotExcludedApp1();
    assert Text.ToLower("main.go") == "main.go";
    assert ScenarioGoMods(["app1"]);
  }

  lemma ScenarioApp2(buildDir: Path)
    ensures Discover(Visit(["lib", "app2", "main.go"], false), buildDir, ScenarioGoMods)
         == Some(Project(buildDir, [], ["lib", "app2"], "app2"))
  {
    var hasGoMod := ScenarioGoMods;
    NotExcludedApp2();
    assert Text.ToLower("main.go") == "main.go";
    assert hasGoMod([]) && !hasGoMod(["lib"]) && !hasGoMod(["lib", "app2"]);
    assert FindNearestGoMod([], hasGoMod) == Some([]);
    assert Dir(["lib"]) == [];
    assert FindNearestGoMod(["lib"], hasGoMod) == Some([]);
    assert Dir(["lib", "app2"]) == ["lib"];
    assert FindNearestGoMod(["lib", "app2"], hasGoMod) == Some([]);
    var path: Path := ["lib", "app2", "main.go"];
    assert Dir(path) == ["lib", "app2"] && Base(path) == "main.go";
    assert IsMainGo(path);
  }

  /** A tree with `/app1/main.go` next to `/app1/go.mod` and
      `/lib/app2/main.go` under a module rooted at `/`: the walk publishes
      app1 rooted at `/app1` and app2 rooted at `/`. */
  lemma DiscoveryScenario(buildDir: Path)
    ensures var entries := [Visit([], true), Visit(["app1"], true), Visit(["app1", "main.go"], false),
                            Visit(["lib", "app2", "main.go"], false)];
            FindMainAndGoMod(entries, buildDir, ScenarioGoMods)
              == [Project(buildDir, ["app1"], ["app1"], "app1"), Project(buildDir, [], ["lib", "app2"], "app2")]
  {
    var hasGoMod := ScenarioGoMods;
    var e1 := Visit(["app1", "main.go"], false);
    var e2 := Visit(["lib", "app2", "main.go"], false);
    ScenarioApp1(buildDir);
    ScenarioApp2(buildDir);
    var entries := [Visit([], true), Visit(["app1"], true), e1, e2];
    assert FindMainAndGoMod([e2], buildDir, hasGoMod) == [Project(buildDir, [], ["lib", "app2"], "app2")] by {
      assert [e2][1..] == [];
    }
    var p1 := Project(buildDir, ["app1"], ["app1"], "app1");
    assert [e1, e2][1..] == [e2];
    assert FindMainAndGoMod([e1, e2], buildDir, hasGoMod) == [p1] + FindMainAndGoMod([e2], buildDir, hasGoMod);
    var d1 := Visit(["app1"], true);
    assert [d1, e1, e2][1..] == [e1, e2];
    assert FindMainAndGoMod([d1, e1, e2], buildDir, hasGoMod) == FindMainAndGoMod([e1, e2], buildDir, hasGoMod);
    assert entries[1..] == [d1, e1, e2];
  }
}

=== FILE: wrappers.dfy ===
/** Failure-carrying values shared by every module of the model. */
module Wrappers {

  /** An optional value; `None` stands for Go's empty string or nil result. */
  datatype Option<+T> = None | Some(value: T)

  /** A value or an error, for Go's `(T, error)` pairs. */
  datatype Result<+R, +E> = Success(value: R) | Failure(error: E)

  /** A bare `error` return: `Pass` is nil. */
  datatype Outcome<+E> = Pass | Fail(error: E)
}
